=== FILE: README.md ===
# react-redux-translate utilities in Dafny

This project models the helper module `src/utils.js` of react-redux-translate. The module holds the library's logic:

- The `${name}` **templater** interpolates data into a translation string.
- The **markup sniffer** `hasHtmlTags`, together with `getLocalizedElement`, decides whether a translation is rendered as text, as inner HTML, or as a span of children.
- The **table reshapers** (`getIndexForLanguageCode`, `getTranslationsForLanguage` and `getSingleToMultilanguageTranslation`) move between multi-language and single-language translation tables.
- `validateOptions` checks the initialize options.
- `get` follows a dotted path.
- `objectValuesToString` joins an object's values.

## Modules

| file | module | what it holds |
|---|---|---|
| `wrappers.dfy` | `Wrappers` | `Option` and `Result` |
| `js_text.dfy` | `JsText` | JavaScript's `\s`, `\w` and `.` classes, greedy runs, ASCII case folding, and `split`/`join` on one character |
| `js_values.dfy` | `JsValues` | a JSON-like value with JavaScript truthiness, own-property lookup and string conversion |
| `templater.dfy` | `Templating` | `templater` |
| `html_tags.dfy` | `HtmlTags` | `hasHtmlTags`, as written and corrected |
| `localized_element.dfy` | `LocalizedElement` | `getLocalizedElement` |
| `translations.dfy` | `Translations` | the three table functions |
| `options.dfy` | `OptionValidation` | `validateOptions` |
| `path_get.dfy` | `PathGet` | `get` |
| `object_values.dfy` | `ObjectValues` | `objectValuesToString` |

## How the code is modelled

**The templater.**
- Two regular expressions drive it. The split pattern `(\${\s*[^\s}]+\s*})` is a greedy scanner, `PlaceholderEnd`. It is proved to find exactly the spans the pattern describes; the three character classes meet at disjoint borders, so the match is unique.
- `String.prototype.split` with a capturing pattern is `SplitFrom`. Empty pieces are then dropped.
- Each data key's pattern `\${\s*key\s*}` with the `i` flag is `KeyMatchAt`. It is searched anywhere in the piece, as `regex.test` on a fresh expression does.
- The data is a sequence of (key, value) pairs in for-in order. A value is a string or an opaque element.
- The per-piece `for...in` loop with `if (matched) break` is the method `ResolvePiece`. It is proved equal to the function `Lookup`.

**`hasHtmlTags`.**
- It is an existence predicate over positions, one predicate per sub-expression, with attributes included.
- A backtracking search finds a match exactly when one exists, because nothing in the pattern can iterate on an empty match.

**Loops.**
- `getLocalizedElement`'s early-return `for...of` loop is a `for` loop with an early `return`.
- The key loops of the two table functions are `while` loops over the key set of a Dafny `map`.

**Values.**
- JavaScript values are the datatype `JsValue`, with integer numbers.
- An absent property reads as `Undefined`.

**Behaviours a caller might not expect (the model follows the code).**
- `validateOptions` rejects options without `renderToStaticMarkup`. That is neither `false` nor a function, so it throws.
- Key matching ignores ASCII case, because of the `i` flag on line 42.
- `getSingleToMultilanguageTranslation` returns `{}` for a code that is not in the list.
- `getTranslationsForLanguage` with a language whose code is not in the list maps every key to `undefined`, because `indexOf` gives -1. It does not return an empty mapping.
- `get` does not stop at the first miss. It carries on walking the remaining segments from `defaultValue`.

## Model

| member | source | states |
|---|---|---|
| Templating.PlaceholderEndIsPattern | src/utils.js:33-35 | the greedy scanner ends a match at `e` exactly when `${`, spaces, a non-empty name without spaces or `}`, spaces and `}` span the string up to `e` |
| Templating.PiecesConcat | src/utils.js:34-36 | splitting with the placeholders kept and dropping empty pieces loses no character, and no piece is empty |
| Templating.PiecesShape | src/utils.js:34-36 | every piece is one whole placeholder or text in which the placeholder pattern matches nowhere |
| Templating.PlaceholderIsOnePiece | src/utils.js:34-36 | a template that is one placeholder splits into itself alone |
| Templating.KeyMatchIsPlaceholder | src/utils.js:33-43 | wherever an admissible key's pattern matches, the split pattern matches at the same place |
| Templating.NoKeyInFreeText | src/utils.js:37-45 | no admissible key's pattern occurs in text in which the split pattern matches nowhere |
| Templating.SpacedWordIsPlaceholder | src/utils.js:33-35 | `${`, any spaces, a word, any spaces and `}` form one placeholder |
| Templating.SpacedKeyOccurs | src/utils.js:41-43 | an admissible key's pattern occurs in such a placeholder exactly when the key equals the word up to ASCII letter case, in both directions |
| Templating.SpacedKeyMatchesName | src/utils.js:41-43 | a key's pattern can match a spaced name only at its start and only over the whole name, so the key is the name up to case |
| Templating.PieceValueFirstTruthyMatch | src/utils.js:37-46 | a piece becomes the value of the first key, in for-in order, whose pattern occurs in it with a truthy value |
| Templating.PieceValueNoTruthyMatch | src/utils.js:37-46 | without a truthy match, a piece becomes `""` if some key with value `""` matched, and stays as it is if none matched |
| Templating.ResolvePiece | src/utils.js:37-47 | the `for...in` loop with `if (matched) break` computes the piece's value |
| Templating.TextOfIsConcat | src/utils.js:53-55 | the `reduce` that appends every string part to `""` is the in-order concatenation of the parts |
| Templating.TemplaterResultShape | src/utils.js:49-55 | the result is the resolved pieces when one of them is an element, and otherwise their in-order concatenation |
| Templating.TemplaterWithoutData | src/utils.js:30-36 | with no data every template, the empty one included, comes back unchanged |
| Templating.TemplaterLiteralText | src/utils.js:30-55 | a template in which the split pattern matches nowhere comes back unchanged, whatever the data |
| Templating.TemplaterKeepsText | src/utils.js:34-47 | only whole placeholders are substituted, and the pieces spell the template |
| Templating.TemplaterSubstitutes | src/utils.js:37-55 | a one-placeholder template becomes the first truthy matching value: a string gives text, an element gives a one-part sequence |
| Templating.TemplaterUnmatchedPlaceholder | src/utils.js:45 | a placeholder that no key's pattern occurs in stays as its literal text |
| Templating.TemplaterSpacedName | src/utils.js:37-55 | `${ name }` takes the value of the first key equal to `name` up to case and having a truthy value; keys with other names, truthy or not, are passed over |
| Templating.ExampleSpacedPlaceholder | src/utils.js:41-43 | `templater("${ name }", {name: "Ann"})` is `"Ann"` |
| Templating.ExampleCaseInsensitive | src/utils.js:42 | `${NAME}` picks up `data.name` |
| Templating.ExampleEmptyMatchOverridden | src/utils.js:40-43 | an empty-string match is overridden by a later key that matches up to case |
| Templating.ExampleOtherKeyFirst | src/utils.js:39-43 | `templater("${name}", {greeting: "Hi", name: "Ann"})` is `"Ann"` |
| Templating.ExampleElement | src/utils.js:49-51 | substituting an element yields the sequence of parts |
| HtmlTags.PlainTextIsNotMarkup | src/utils.js:25-28 | a string with neither `<` nor `&` holds no markup |
| HtmlTags.EntityIsMarkup | src/utils.js:26 | `&name;` with no whitespace in the name is detected anywhere in a string |
| HtmlTags.SimpleTagIsMarkup | src/utils.js:26 | `<name>`, `</name>` and self-closing `<name/>`, with any spaces before `>` or `/>`, are detected anywhere in a string |
| HtmlTags.QuotedAttributeIsMarkup | src/utils.js:26 | a tag with a double-quoted attribute value is detected, as written and corrected |
| HtmlTags.UnquotedAttributeIsMarkup | src/utils.js:26 | the corrected pattern detects a tag with an unquoted attribute value |
| HtmlTags.ExampleBold | src/utils.js:25-28 | `"<b>hi</b>"` holds markup |
| HtmlTags.ExampleLineBreak | src/utils.js:25-28 | `"a<br />b"` holds markup |
| HtmlTags.ExampleEntity | src/utils.js:25-28 | `"a &amp; b"` holds markup |
| HtmlTags.ExamplePlainText | src/utils.js:25-28 | `"plain text"` holds none |
| HtmlTags.AsWrittenMissesUnquotedValue | src/utils.js:26 | the pattern as written finds no markup in `<img src=x>` |
| HtmlTags.IntendedFindsUnquotedValue | src/utils.js:26 | the corrected pattern finds markup in `<img src=x>` |
| LocalizedElement.GetLocalizedElement | src/utils.js:4-23 | a string result is inner HTML when requested and flagged by the sniffer, and otherwise itself; a mixed result becomes `""` with a warning when a string part is flagged, and otherwise a span of its parts in order; the sniffer is the source's as written or the corrected one |
| LocalizedElement.ChildrenNeverHoldMarkup | src/utils.js:14-22 | a span of children holds an element and no markup-bearing string |
| LocalizedElement.InnerHtmlOnlyOnRequest | src/utils.js:8-11 | inner HTML is produced only when `renderInnerHtml` is set, and only from a markup-bearing templated string |
| LocalizedElement.WarningMeansEmptyText | src/utils.js:14-19 | the warning is raised exactly when a mixed result renders as `""` |
| LocalizedElement.PlainTranslationRendersAsText | src/utils.js:4-12 | a translation without data and without `<` or `&` renders as its own text, without a warning |
| LocalizedElement.MarkupTranslationWithoutData | src/utils.js:8-11 | a markup-bearing translation without data is inner HTML exactly when requested |
| LocalizedElement.ExampleUnquotedTagRendering | src/utils.js:8-11 | with `renderInnerHtml` set, `<img src=x>` renders as the plain string under the sniffer as written and as inner HTML under the corrected one |
| Translations.IndexOf | src/utils.js:59 | `indexOf` gives the first index holding the value, or -1 exactly when the value is absent |
| Translations.IndexForLanguageCode | src/utils.js:58-60 | the index of the first language with the code, or -1 exactly when no language has it |
| Translations.GetTranslationsForLanguage | src/utils.js:85-103 | the loop builds the column of the language: `{}` with no language, otherwise every table key mapped to the slot at the language's index |
| Translations.TranslationsForLanguageColumn | src/utils.js:91-100 | the result has exactly the table's keys, each mapped to the slot of the first language carrying the code, or `undefined` past the array's end |
| Translations.TranslationsForUnknownLanguage | src/utils.js:92-100 | a code that no language carries maps every key to `undefined` |
| Translations.GetSingleToMultilanguageTranslation | src/utils.js:121-139 | the loop builds, for every key of the update, the array of one slot per language code |
| Translations.SingleToMultiShape | src/utils.js:121-139 | `{}` for an unknown code; otherwise exactly the update's keys, each array as long as the code list, holding the new string at the code's first slot and the existing value or `undefined` elsewhere |
| Translations.ReadBackWrittenColumn | src/utils.js:85-139 | reading back the column just written gives the update |
| Translations.WriteBackReadColumn | src/utils.js:85-139 | reading a fully filled column out of a table with one slot per language and writing it back gives the table again |
| Translations.OtherColumnsUnchanged | src/utils.js:130-133 | writing one language's column leaves what every other language reads unchanged for the written keys |
| Translations.SingleToMultiIdempotent | src/utils.js:121-139 | writing the same update twice is writing it once |
| OptionValidation.ValidateOptions | src/utils.js:70-83 | on success the options come back unchanged |
| OptionValidation.ValidateOptionsOutcome | src/utils.js:70-83 | success exactly when both checks pass; each error exactly when its check fails, the `onMissingTranslation` error first |
| OptionValidation.OtherOptionsIgnored | src/utils.js:70-83 | options other than the two checked never change the verdict |
| OptionValidation.ExampleOnMissingTranslationNotAFunction | src/utils.js:71-73 | `{onMissingTranslation: "not a function"}` is rejected |
| OptionValidation.ExampleStaticMarkupDisabled | src/utils.js:75-82 | `{renderToStaticMarkup: false}` passes |
| OptionValidation.ExampleEmptyOptionsRejected | src/utils.js:75-80 | `{}` is rejected for its missing `renderToStaticMarkup` |
| PathGet.Step | src/utils.js:144 | a step yields the property when both the value and its property are truthy, the default when the value is falsy, and never anything but the property or the default |
| PathGet.SegmentsOfPath | src/utils.js:142 | splitting the path on `.` loses nothing but the dots, and every kept segment is a non-empty key without a dot |
| PathGet.SegmentsOfName | src/utils.js:142 | a path without dots is one segment |
| PathGet.EmptyPathGivesObject | src/utils.js:141-146 | an empty or dots-only path returns the object itself |
| PathGet.GetTruthyOrDefault | src/utils.js:141-146 | with at least one segment the result is truthy or the default, so a falsy final value gives the default |
| PathGet.ResolvedWalkIsFollow | src/utils.js:143-145 | when every step finds a truthy property, the result is plain property access |
| PathGet.FailedStepContinuesInDefault | src/utils.js:143-145 | after a miss the remaining segments are looked up in the default value |
| PathGet.GetCompose | src/utils.js:141-146 | `get(obj, "p.q")` is `get(get(obj, "p"), "q")` with the same default |
| PathGet.ExampleNested | src/utils.js:141-146 | `get({a: {b: 2}}, "a.b")` is `2` |
| PathGet.ExampleFalsyGivesDefault | src/utils.js:141-146 | `get({a: {b: 0}}, "a.b", 99)` is `99` |
| ObjectValues.BranchesAgree | src/utils.js:63-67 | without `undefined` or `null` values, both branches give the same string |
| ObjectValues.BranchesDifferOnNullish | src/utils.js:63-67 | with an `undefined` or `null` value the fallback throws, while `Object.values` writes an empty field |
| ObjectValues.SplitRecoversValues | src/utils.js:62-68 | comma-free string values are recovered by splitting the result on commas |
| ObjectValues.ExampleMixedValues | src/utils.js:67 | `{a: "x", b: 1, c: null}` gives `"x,1,"` |

## Left out

- `storeDidChange` (src/utils.js:105-119) is left out. It is a subscription to an external store, compared by reference identity.
- `warning` (src/utils.js:148-156) prints to the console. `GetLocalizedElement` returns a flag saying whether it was called.
- LocalizedElement.GetLocalizedElement takes the sniffer variant as an extra parameter, `corrected`. The source's behaviour is `corrected == false`. The two differ on tags with an unquoted attribute value: with the sniffer as written, `<img src=x>` is rendered as plain text, and a mixed result whose only markup is a part such as `<a href=x>` becomes a span of children.
- React is abstract. `React.createElement` becomes the `Element` constructors. An element is an opaque `Elem(id)`, and `React.isValidElement` is the `Elem?` test.
- Data values are strings or elements only. Numbers, and their formatting by the template literal on line 54, are not modelled.
- Templater data keys must be non-empty runs of `\w` and distinct. The source splices keys into a regular expression unescaped. Keys with other characters are not modelled, because the model folds case for ASCII only and its proofs rely on keys being word characters. Some such keys, like `first-name`, mean themselves in the pattern. Others, like `a.b` or `a+`, change what it matches.
- Templating.Templater takes a string template. A missing (`undefined`) template is not modelled apart from `""`, for which `!strings` also returns `""`.
- The key order of the objects that `getTranslationsForLanguage` and `getSingleToMultilanguageTranslation` build is not modelled. Tables are Dafny maps, and the key loops take the keys in any order.
- Translations.WriteBackReadColumn needs every array to have one slot per language and the language's own slot filled. A shorter array comes back padded with `undefined`. An `undefined` slot cannot be written back, because a single-language table holds only strings.
- Translations.GetTranslationsForLanguage and Translations.GetSingleToMultilanguageTranslation do not model an own key spelled `__proto__`, such as one that `JSON.parse` creates. The source builds its results by assigning into a fresh `{}` (src/utils.js:95-99 and 126-135). That assignment calls the inherited `__proto__` setter instead of creating a property. So the first function drops the key from its result, and the second drops it and makes the array the result's prototype. The model's maps keep the key. For this key, `TranslationsForLanguageColumn`'s equal key sets and `SingleToMultiShape`'s `r.Keys == flat.Keys` do not hold of the source.
- Translations.GetTranslationsForLanguage assumes every table entry is an array. A non-array entry, whose `[index]` would read a property of some other value, is not modelled.
- JsValues.Prop treats a string as a sequence of Unicode scalar values, whereas JavaScript indexes and measures strings in UTF-16 code units. For a character outside the Basic Multilingual Plane they differ. For example, `get("\u{1F600}", "length")` is 2 in JavaScript and 1 here, and index `"0"` gives the whole character here instead of its high surrogate. Lone surrogates cannot be represented. The templater and the sniffer are not affected, because in their character classes a surrogate pair behaves like its code point.
- JsValues.Prop models only some own properties: object fields, array elements, string characters and the `length` of arrays and strings. A function's own `length` and `name` read as `undefined`, so `get(fn, "length")` gives the default where the source may give the arity. Inherited properties such as `toString` also read as `undefined`.
- JavaScript numbers are integers here. `NaN`, `-0`, fractions and exponent notation are not modelled.
- ObjectValues.ObjectValuesToString converts a function to its source text, which is kept as a field of the value. A plain object becomes `[object Object]`. Objects with their own `toString` are not modelled.
- `getLocalizedElement` takes `renderInnerHtml` as a boolean. The `=== true` test is therefore plain truth.
- src/Translate.js, src/LocalizeContext.js and webpack.config.js are not part of this model. They are React component glue, context plumbing and build configuration.

## Findings

| source | as written | input that shows it | evidently intended | confidence | as-written member | corrected member |
|---|---|---|---|---|---|---|
| src/utils.js:26 | the unquoted attribute value class is `[\^'">\s]+`, which matches only `^`, quotes, `>` and whitespace | `<img src=x>`: not detected as markup | `[^'">\s]+`, any run of characters other than quotes, `>` and whitespace, so a tag with an unquoted value is detected | not executed | HtmlTags.AsWrittenMissesUnquotedValue | HtmlTags.IntendedFindsUnquotedValue |

`HtmlTags.HasHtmlTagsAsWritten` keeps the class as written, and `HtmlTags.HasHtmlTagsCorrected` uses the intended one. `LocalizedElement` takes the variant as a parameter. `LocalizedElement.ExampleUnquotedTagRendering` shows how `getLocalizedElement` renders `<img src=x>` under each. `HtmlTags.UnquotedAttributeIsMarkup` proves the corrected predicate detects every one-attribute tag with an unquoted value.

=== FILE: html_tags.dfy ===
/**
 * The markup sniffer (`hasHtmlTags` in src/utils.js): does the string hold
 * an entity reference `&...;` or something shaped like an opening, closing
 * or self-closing tag?
 *
 * `value.search(pattern) >= 0` asks whether the pattern matches some
 * substring. The pattern has no look-arounds, back-references or iterations
 * that can match the empty string, so a backtracking matcher finds a match
 * exactly when one exists; the model therefore states the pattern as an
 * existence predicate over positions, one predicate per sub-expression.
 * Every quantifier is bounded, so the predicates are executable.
 *
 * The unquoted attribute value class is a parameter: `[\^'">\s]` as the
 * source writes it (`corrected == false`), or `[^'">\s]` (`corrected == true`).
 */
module HtmlTags {
  import opened JsText

  /** `&[^\s]*;` matches at `p`. */
  predicate EntityAt(s: string, p: nat)
    requires p < |s|
  {
    s[p] == '&' && exists j :: p < j < |s| && s[j] == ';' && AllInClass(s, p + 1, j, NonSpace)
  }

  /** `\s*\/?>` matches `s[i..]` up to and including some `>`. */
  predicate CloseAt(s: string, i: nat)
    requires i <= |s|
  {
    exists k :: i <= k < |s| && AllInClass(s, i, k, Space)
      && (s[k] == '>' || (s[k] == '/' && k + 1 < |s| && s[k + 1] == '>'))
  }

  /** No character of `s[i..j]` is one that `.` refuses. */
  predicate NoLineTerminator(s: string, i: nat, j: nat)
    requires i <= j <= |s|
  {
    forall k :: i <= k < j ==> !IsLineTerminator(s[k])
  }

  /** A character of an unquoted attribute value. */
  predicate UnquotedValueChar(c: char, corrected: bool) {
    if corrected then !(c == '\'' || c == '"' || c == '>' || IsSpace(c))
    else c == '^' || c == '\'' || c == '"' || c == '>' || IsSpace(c)
  }

  /** `".*?"|'.*?'|[\^'">\s]+` matches exactly `s[d..j]`. */
  predicate ValueAt(s: string, d: nat, j: nat, corrected: bool)
    requires d <= j <= |s|
  {
    || (d + 2 <= j && s[d] == '"' && s[j - 1] == '"' && NoLineTerminator(s, d + 1, j - 1))
    || (d + 2 <= j && s[d] == '\'' && s[j - 1] == '\'' && NoLineTerminator(s, d + 1, j - 1))
    || (d < j && forall k :: d <= k < j ==> UnquotedValueChar(s[k], corrected))
  }

  /** `\s*=\s*` followed by a value matches exactly `s[b..j]`. */
  predicate ValueSpan(s: string, b: nat, j: nat, corrected: bool)
    requires b <= j <= |s|
  {
    exists c, d :: b <= c < d <= j && AllInClass(s, b, c, Space) && s[c] == '='
      && AllInClass(s, c + 1, d, Space) && ValueAt(s, d, j, corrected)
  }

  /** One attribute, `\s+\w+(\s*=\s*value)?`, matches exactly `s[i..j]`. */
  predicate AttributeSpan(s: string, i: nat, j: nat, corrected: bool)
    requires i <= j <= |s|
  {
    exists a, b :: i < a < b <= j && AllInClass(s, i, a, Space) && AllInClass(s, a, b, Word)
      && (b == j || ValueSpan(s, b, j, corrected))
  }

  /** One or more attributes followed by `\s*\/?>` match from `i` on. */
  predicate AttributesThenClose(s: string, i: nat, corrected: bool)
    requires i <= |s|
    decreases |s| - i
  {
    exists j :: i < j <= |s| && AttributeSpan(s, i, j, corrected)
      && (CloseAt(s, j) || AttributesThenClose(s, j, corrected))
  }

  /** `<\/?\w+(attributes\s*|\s*)\/?>` matches at `p`. */
  predicate TagAt(s: string, p: nat, corrected: bool)
    requires p < |s|
  {
    && s[p] == '<'
    && exists n, w :: p < n < w <= |s|
         && (n == p + 1 || (n == p + 2 && s[p + 1] == '/'))
         && AllInClass(s, n, w, Word)
         && (CloseAt(s, w) || AttributesThenClose(s, w, corrected))
  }

  /** The pattern matches somewhere in `s`. */
  predicate HasMarkup(s: string, corrected: bool) {
    exists p :: 0 <= p < |s| && (EntityAt(s, p) || TagAt(s, p, corrected))
  }

  /** `hasHtmlTags` as written, with `[\^'">\s]+` for unquoted attribute values. */
  predicate HasHtmlTagsAsWritten(s: string) {
    HasMarkup(s, false)
  }

  /** `hasHtmlTags` corrected, with the unquoted attribute value class `[^'">\s]+`. */
  predicate HasHtmlTagsCorrected(s: string) {
    HasMarkup(s, true)
  }

  // ---------------------------------------------------------------------------
  // Properties

  /** Every match begins with `&` or `<`: text with neither is never markup. */
  lemma PlainTextIsNotMarkup(s: string, corrected: bool)
    requires '<' !in s && '&' !in s
    ensures !HasMarkup(s, corrected)
  {
    if HasMarkup(s, corrected) {
      var p :| 0 <= p < |s| && (EntityAt(s, p) || TagAt(s, p, corrected));
    }
  }

  /** `&name;` with no space in the name is an entity reference, wherever it stands. */
  lemma EntityIsMarkup(pre: string, name: string, post: string, corrected: bool)
    requires forall k :: 0 <= k < |name| ==> !IsSpace(name[k])
    ensures HasMarkup(pre + "&" + name + ";" + post, corrected)
  {
    var s := pre + "&" + name + ";" + post;
    var p := |pre|;
    var j := p + 1 + |name|;
    assert s[p] == '&' && s[j] == ';';
    assert forall k :: p + 1 <= k < j ==> s[k] == name[k - p - 1];
    assert AllInClass(s, p + 1, j, NonSpace);
    assert EntityAt(s, p);
  }

  /** Where an element name starts at `n`, followed by spaces and `>` or `/>`, the pattern matches. */
  lemma NamedTagAt(s: string, p: nat, n: nat, w: nat, k: nat, corrected: bool)
    requires p < n < w <= k < |s| && s[p] == '<' && (n == p + 1 || (n == p + 2 && s[p + 1] == '/'))
    requires AllInClass(s, n, w, Word) && AllInClass(s, w, k, Space)
    requires s[k] == '>' || (s[k] == '/' && k + 1 < |s| && s[k + 1] == '>')
    ensures HasMarkup(s, corrected)
  {
    assert CloseAt(s, w);
    assert TagAt(s, p, corrected);
  }

  /**
   * `<name>`, `</name>` and the self-closing `<name/>`, with any spaces
   * before the closing `>` or `/>`, are tags, wherever they stand.
   */
  lemma SimpleTagIsMarkup(pre: string, closing: bool, name: string, spaces: string, selfClosing: bool,
                          post: string, corrected: bool)
    requires |name| > 0 && forall k :: 0 <= k < |name| ==> IsWordChar(name[k])
    requires forall k :: 0 <= k < |spaces| ==> IsSpace(spaces[k])
    ensures HasMarkup(pre + (if closing then "</" else "<") + name + spaces + (if selfClosing then "/>" else ">") + post,
                      corrected)
  {
    var open := if closing then "</" else "<";
    var close := if selfClosing then "/>" else ">";
    var s := pre + open + name + spaces + close + post;
    var p := |pre|;
    var n := p + |open|;
    var w := n + |name|;
    var k := w + |spaces|;
    assert s[p] == '<';
    assert closing ==> s[p + 1] == '/';
    assert selfClosing ==> s[k] == '/' && s[k + 1] == '>';
    assert !selfClosing ==> s[k] == '>';
    assert forall i :: n <= i < w ==> s[i] == name[i - n];
    assert forall i :: w <= i < k ==> s[i] == spaces[i - w];
    NamedTagAt(s, p, n, w, k, corrected);
  }

  /** A tag with one attribute whose value lies between double quotes on one line is markup. */
  lemma QuotedAttributeIsMarkup(name: string, attr: string, value: string, corrected: bool)
    requires |name| > 0 && forall k :: 0 <= k < |name| ==> IsWordChar(name[k])
    requires |attr| > 0 && forall k :: 0 <= k < |attr| ==> IsWordChar(attr[k])
    requires forall k :: 0 <= k < |value| ==> !IsLineTerminator(value[k])
    ensures HasMarkup("<" + name + " " + attr + "=\"" + value + "\">", corrected)
  {
    var s := "<" + name + " " + attr + "=\"" + value + "\">";
    var w := 1 + |name|;
    var b := w + 1 + |attr|;
    var d := b + 1;
    var j := d + 1 + |value| + 1;
    assert s[w] == ' ' && s[b] == '=' && s[d] == '"' && s[j - 1] == '"' && s[j] == '>';
    assert forall k :: 1 <= k < w ==> s[k] == name[k - 1];
    assert forall k :: w + 1 <= k < b ==> s[k] == attr[k - w - 1];
    assert forall k :: d + 1 <= k < j - 1 ==> s[k] == value[k - d - 1];
    assert ValueAt(s, d, j, corrected);
    assert AllInClass(s, b, b, Space) && AllInClass(s, b + 1, d, Space);
    assert ValueSpan(s, b, j, corrected);
    assert AllInClass(s, w, w + 1, Space) && AllInClass(s, w + 1, b, Word);
    assert AttributeSpan(s, w, j, corrected);
    assert AllInClass(s, j, j, Space) && CloseAt(s, j);
    assert AttributesThenClose(s, w, corrected);
    assert AllInClass(s, 1, w, Word);
    assert TagAt(s, 0, corrected);
  }

  /** A tag with one attribute whose value is written without quotes is markup. */
  lemma UnquotedAttributeIsMarkup(name: string, attr: string, value: string)
    requires |name| > 0 && forall k :: 0 <= k < |name| ==> IsWordChar(name[k])
    requires |attr| > 0 && forall k :: 0 <= k < |attr| ==> IsWordChar(attr[k])
    requires |value| > 0 && forall k :: 0 <= k < |value| ==> UnquotedValueChar(value[k], true)
    ensures HasHtmlTagsCorrected("<" + name + " " + attr + "=" + value + ">")
  {
    var s := "<" + name + " " + attr + "=" + value + ">";
    var w := 1 + |name|;
    var b := w + 1 + |attr|;
    var d := b + 1;
    var j := d + |value|;
    assert s[w] == ' ' && s[b] == '=' && s[j] == '>';
    assert forall k :: 1 <= k < w ==> s[k] == name[k - 1];
    assert forall k :: w + 1 <= k < b ==> s[k] == attr[k - w - 1];
    assert forall k :: d <= k < j ==> s[k] == value[k - d];
    assert ValueAt(s, d, j, true);
    assert AllInClass(s, b, b, Space) && AllInClass(s, d, d, Space);
    assert ValueSpan(s, b, j, true);
    assert AllInClass(s, w, w + 1, Space) && AllInClass(s, w + 1, b, Word);
    assert AttributeSpan(s, w, j, true);
    assert AllInClass(s, j, j, Space) && CloseAt(s, j);
    assert AttributesThenClose(s, w, true);
    assert AllInClass(s, 1, w, Word);
    assert TagAt(s, 0, true);
  }

  /** `hasHtmlTags("<b>hi</b>")` */
  lemma ExampleBold()
    ensures HasHtmlTagsCorrected("<b>hi</b>") && HasHtmlTagsAsWritten("<b>hi</b>")
  {
    SimpleTagIsMarkup("", false, "b", "", false, "hi</b>", true);
    SimpleTagIsMarkup("", false, "b", "", false, "hi</b>", false);
    assert "" + "<" + "b" + "" + ">" + "hi</b>" == "<b>hi</b>";
  }

  /** `hasHtmlTags("a<br />b")`: a self-closing tag with a space before `/>`. */
  lemma ExampleLineBreak()
    ensures HasHtmlTagsCorrected("a<br />b") && HasHtmlTagsAsWritten("a<br />b")
  {
    SimpleTagIsMarkup("a", false, "br", " ", true, "b", true);
    SimpleTagIsMarkup("a", false, "br", " ", true, "b", false);
    assert "a" + "<" + "br" + " " + "/>" + "b" == "a<br />b";
  }

  /** `hasHtmlTags("a &amp; b")` */
  lemma ExampleEntity()
    ensures HasHtmlTagsCorrected("a &amp; b") && HasHtmlTagsAsWritten("a &amp; b")
  {
    assert "a " + "&" + "amp" + ";" + " b" == "a &amp; b";
    EntityIsMarkup("a ", "amp", " b", true);
    EntityIsMarkup("a ", "amp", " b", false);
  }

  /** `hasHtmlTags("plain text")` is false. */
  lemma ExamplePlainText()
    ensures !HasHtmlTagsCorrected("plain text") && !HasHtmlTagsAsWritten("plain text")
  {
    PlainTextIsNotMarkup("plain text", true);
    PlainTextIsNotMarkup("plain text", false);
  }

  // ---------------------------------------------------------------------------
  // The unquoted attribute value class as written

  /** A close begins with a space, `/` or `>`. */
  lemma CloseAtStart(s: string, i: nat)
    requires i <= |s|
    ensures CloseAt(s, i) ==> i < |s| && (IsSpace(s[i]) || s[i] == '>' || s[i] == '/')
  {
    if CloseAt(s, i) {
      var k :| i <= k < |s| && AllInClass(s, i, k, Space)
        && (s[k] == '>' || (s[k] == '/' && k + 1 < |s| && s[k + 1] == '>'));
      if k > i {
        assert InClass(s[i], Space);
      }
    }
  }

  /** An attribute list begins with a space. */
  lemma AttributesStart(s: string, i: nat, corrected: bool)
    requires i <= |s|
    ensures AttributesThenClose(s, i, corrected) ==> i < |s| && IsSpace(s[i])
  {
    if AttributesThenClose(s, i, corrected) {
      var j :| i < j <= |s| && AttributeSpan(s, i, j, corrected)
        && (CloseAt(s, j) || AttributesThenClose(s, j, corrected));
      var a, b :| i < a < b <= j && AllInClass(s, i, a, Space) && AllInClass(s, a, b, Word)
        && (b == j || ValueSpan(s, b, j, corrected));
      assert InClass(s[i], Space);
    }
  }

  /** The string of the counterexample below. */
  const ImgTag: string := "<img src=x>"

  /** After `<img` nothing closes the tag: a space, then `s`. */
  lemma NotCloseAfterName()
    ensures !CloseAt(ImgTag, 4)
  {
    var s := ImgTag;
    assert s[4] == ' ' && !IsSpace(s[5]);
    forall k | 4 <= k < |s|
      ensures !(AllInClass(s, 4, k, Space) && (s[k] == '>' || (s[k] == '/' && k + 1 < |s| && s[k + 1] == '>')))
    {
      if k > 5 {
        assert !InClass(s[5], Space);
      }
    }
  }

  /** No value can follow `src`: the character after `=` is `x`, outside `[\^'">\s]`. */
  lemma NoValueAfterAttribute(b: nat, j: nat)
    requires 6 <= b <= 8 && b <= j <= |ImgTag|
    ensures !ValueSpan(ImgTag, b, j, false)
  {
    var s := ImgTag;
    assert !IsSpace(s[6]) && !IsSpace(s[7]) && !IsSpace(s[8]) && !IsSpace(s[9]);
    assert s[6] != '=' && s[7] != '=' && s[8] == '=' && !UnquotedValueChar(s[9], false);
    forall c, d | b <= c < d <= j
      ensures !(AllInClass(s, b, c, Space) && s[c] == '=' && AllInClass(s, c + 1, d, Space) && ValueAt(s, d, j, false))
    {
      if c > b {
        assert !InClass(s[b], Space);
      }
      if d > c + 1 {
        assert !InClass(s[c + 1], Space) || c + 1 != 9;
      }
    }
  }

  /** The only attribute after `<img` is a bare `s`, `sr` or `src`. */
  lemma BareAttributeOnly(j: nat)
    requires 4 < j <= |ImgTag|
    ensures AttributeSpan(ImgTag, 4, j, false) ==> 6 <= j <= 8
  {
    var s := ImgTag;
    assert !IsSpace(s[5]) && !IsWordChar(s[8]);
    forall a, b | 4 < a < b <= j && AllInClass(s, 4, a, Space) && AllInClass(s, a, b, Word)
      ensures b <= 8 && (b == j || !ValueSpan(s, b, j, false))
    {
      if b >= 6 && b <= 8 {
        NoValueAfterAttribute(b, j);
      }
    }
  }

  /** Nothing closes the tag or starts an attribute inside `src=`: letters and `=` are neither spaces, `/` nor `>`. */
  lemma StuckInsideAttribute(j: nat)
    requires 6 <= j <= 8
    ensures !CloseAt(ImgTag, j) && !AttributesThenClose(ImgTag, j, false)
  {
    var s := ImgTag;
    CloseAtStart(s, j);
    AttributesStart(s, j, false);
    assert !IsSpace(s[6]) && !IsSpace(s[7]) && !IsSpace(s[8]);
    assert s[j] == 'r' || s[j] == 'c' || s[j] == '=';
  }

  lemma NoAttributesAfterName()
    ensures !AttributesThenClose(ImgTag, 4, false)
  {
    var s := ImgTag;
    forall j | 4 < j <= |s|
      ensures !(AttributeSpan(s, 4, j, false) && (CloseAt(s, j) || AttributesThenClose(s, j, false)))
    {
      BareAttributeOnly(j);
      if 6 <= j <= 8 {
        StuckInsideAttribute(j);
      }
    }
  }

  lemma NotTagAtStart()
    ensures !TagAt(ImgTag, 0, false)
  {
    var s := ImgTag;
    assert s[1] != '/' && !IsWordChar(s[4]);
    forall n, w | 0 < n < w <= |s| && (n == 1 || (n == 2 && s[1] == '/')) && AllInClass(s, n, w, Word)
      ensures !CloseAt(s, w) && !AttributesThenClose(s, w, false)
    {
      CloseAtStart(s, w);
      AttributesStart(s, w, false);
      if w == 4 {
        NotCloseAfterName();
        NoAttributesAfterName();
      }
    }
  }

  /**
   * `<img src=x>` is not markup to the pattern as written: `x` is outside
   * `[\^'">\s]`, so `src` can only be a bare attribute, and `=` can neither
   * start another attribute nor close the tag.
   */
  lemma AsWrittenMissesUnquotedValue()
    ensures !HasHtmlTagsAsWritten(ImgTag)
  {
    var s := ImgTag;
    forall p | 0 <= p < |s| ensures !EntityAt(s, p) && !TagAt(s, p, false) {
      if p == 0 {
        NotTagAtStart();
      }
    }
  }

  lemma ImgTagSpelledOut()
    ensures "<" + "img" + " " + "src" + "=" + "x" + ">" == ImgTag
  {
  }

  /** The same tag is markup once unquoted values are `[^'">\s]+`. */
  lemma IntendedFindsUnquotedValue()
    ensures HasHtmlTagsCorrected(ImgTag)
  {
    UnquotedAttributeIsMarkup("img", "src", "x");
    ImgTagSpelledOut();
  }
}

=== FILE: js_text.dfy ===
/**
 * The pieces of JavaScript's string and regular-expression semantics that the
 * library's helpers rely on: the `\s`, `\w` and `.` character classes, greedy
 * runs of a class, ASCII case folding, `String.prototype.split` with a
 * one-character separator and `Array.prototype.join`.
 */
module JsText {

  /** `\s`: the WhiteSpace and LineTerminator code points of ECMA-262. */
  predicate IsSpace(c: char) {
    c == '\t' || c == '\n' || c == '\U{000B}' || c == '\U{000C}' || c == '\r' || c == ' '
    || c == '\U{00A0}' || c == '\U{1680}' || ('\U{2000}' <= c <= '\U{200A}')
    || c == '\U{2028}' || c == '\U{2029}' || c == '\U{202F}' || c == '\U{205F}'
    || c == '\U{3000}' || c == '\U{FEFF}'
  }

  /** The characters that `.` does not match when the `s` flag is off. */
  predicate IsLineTerminator(c: char) {
    c == '\n' || c == '\r' || c == '\U{2028}' || c == '\U{2029}'
  }

  /** `\w` */
  predicate IsWordChar(c: char) {
    ('a' <= c <= 'z') || ('A' <= c <= 'Z') || ('0' <= c <= '9') || c == '_'
  }

  /** The character classes that occur in the library's regular expressions. */
  datatype CharClass =
    | Space            // \s
    | Word             // \w
    | NonSpace         // [^\s]
    | PlaceholderName  // [^\s}]

  predicate InClass(c: char, cls: CharClass) {
    match cls
    case Space => IsSpace(c)
    case Word => IsWordChar(c)
    case NonSpace => !IsSpace(c)
    case PlaceholderName => !IsSpace(c) && c != '}'
  }

  /** Every character of `s[i..j]` is in `cls`. */
  predicate AllInClass(s: string, i: nat, j: nat, cls: CharClass)
    requires i <= j <= |s|
  {
    forall k :: i <= k < j ==> InClass(s[k], cls)
  }

  /** Where the longest run of `cls` characters starting at `i` ends: what a greedy `cls*` consumes. */
  function RunEnd(s: string, i: nat, cls: CharClass): (j: nat)
    requires i <= |s|
    ensures i <= j <= |s|
    ensures forall k :: i <= k < j ==> InClass(s[k], cls)
    ensures j < |s| ==> !InClass(s[j], cls)
    decreases |s| - i
  {
    if i < |s| && InClass(s[i], cls) then RunEnd(s, i + 1, cls) else i
  }

  /** A run is maximal in exactly one place. */
  lemma RunEndUnique(s: string, i: nat, cls: CharClass, j: nat)
    requires i <= j <= |s|
    requires forall k :: i <= k < j ==> InClass(s[k], cls)
    requires j < |s| ==> !InClass(s[j], cls)
    ensures RunEnd(s, i, cls) == j
  {
  }

  /**
   * The canonicalisation a case-insensitive, non-Unicode regular expression
   * applies; for an ASCII pattern character only ASCII letters fold onto it.
   */
  function UpperAscii(c: char): char {
    if 'a' <= c <= 'z' then (c as int - 32) as char else c
  }

  predicate SameIgnoringCase(x: string, y: string) {
    |x| == |y| && forall i :: 0 <= i < |x| ==> UpperAscii(x[i]) == UpperAscii(y[i])
  }

  /** A string that matches a run of `\w` characters case-insensitively is itself such a run. */
  lemma SameIgnoringCaseWord(x: string, y: string)
    requires SameIgnoringCase(x, y)
    requires forall i :: 0 <= i < |y| ==> IsWordChar(y[i])
    ensures forall i :: 0 <= i < |x| ==> IsWordChar(x[i])
  {
    forall i | 0 <= i < |x| ensures IsWordChar(x[i]) {
      assert IsWordChar(y[i]);
      if !('a' <= x[i] <= 'z') {
        assert x[i] == UpperAscii(y[i]);
      }
    }
  }

  /** The in-order concatenation of `xs` (a `reduce` with `+` from `""`). */
  function Concat(xs: seq<string>): string {
    if xs == [] then "" else xs[0] + Concat(xs[1..])
  }

  lemma {:induction false} ConcatAppend(xs: seq<string>, ys: seq<string>)
    ensures Concat(xs + ys) == Concat(xs) + Concat(ys)
  {
    if xs != [] {
      assert (xs + ys)[1..] == xs[1..] + ys;
      ConcatAppend(xs[1..], ys);
    } else {
      assert xs + ys == ys;
    }
  }

  /** `xs.filter(Boolean)`: the non-empty strings of `xs`, in order. */
  function NonEmpty(xs: seq<string>): (r: seq<string>)
    ensures |r| <= |xs|
    ensures forall i :: 0 <= i < |r| ==> r[i] != ""
    ensures forall x :: x in r <==> x in xs && x != ""
  {
    if xs == [] then []
    else if xs[0] == "" then NonEmpty(xs[1..])
    else [xs[0]] + NonEmpty(xs[1..])
  }

  /** Dropping empty strings loses no characters. */
  lemma {:induction false} ConcatNonEmpty(xs: seq<string>)
    ensures Concat(NonEmpty(xs)) == Concat(xs)
  {
    if xs != [] {
      ConcatNonEmpty(xs[1..]);
      if xs[0] != "" {
        assert ([xs[0]] + NonEmpty(xs[1..]))[1..] == NonEmpty(xs[1..]);
      }
    }
  }

  lemma {:induction false} NonEmptyAppend(xs: seq<string>, ys: seq<string>)
    ensures NonEmpty(xs + ys) == NonEmpty(xs) + NonEmpty(ys)
  {
    if xs == [] {
      assert xs + ys == ys;
    } else {
      assert (xs + ys)[1..] == xs[1..] + ys;
      NonEmptyAppend(xs[1..], ys);
    }
  }

  /** `s.split(sep)` for a one-character separator: the strings between separators. */
  function SplitOn(s: string, sep: char): (r: seq<string>)
    ensures |r| >= 1
    decreases |s|
  {
    if s == [] then [""]
    else
      var rest := SplitOn(s[1..], sep);
      if s[0] == sep then [""] + rest else [[s[0]] + rest[0]] + rest[1..]
  }

  /** `xs.join(sep)`; `Array.prototype.toString` is `join(",")`. */
  function Join(xs: seq<string>, sep: char): string {
    if |xs| == 0 then ""
    else if |xs| == 1 then xs[0]
    else xs[0] + [sep] + Join(xs[1..], sep)
  }

  /** No piece of a split holds the separator. */
  lemma {:induction false} SplitOnPieces(s: string, sep: char)
    ensures forall i :: 0 <= i < |SplitOn(s, sep)| ==> sep !in SplitOn(s, sep)[i]
  {
    if s != [] {
      SplitOnPieces(s[1..], sep);
    }
  }

  /** Splitting at a separator splits the two sides independently. */
  lemma {:induction false} SplitOnAppend(x: string, y: string, sep: char)
    ensures SplitOn(x + [sep] + y, sep) == SplitOn(x, sep) + SplitOn(y, sep)
  {
    var s := x + [sep] + y;
    if x == [] {
      assert s[1..] == y;
    } else {
      assert s[1..] == x[1..] + [sep] + y;
      SplitOnAppend(x[1..], y, sep);
    }
  }

  /** A string without the separator splits into itself. */
  lemma {:induction false} SplitOnNoSeparator(x: string, sep: char)
    requires sep !in x
    ensures SplitOn(x, sep) == [x]
  {
    if x != [] {
      SplitOnNoSeparator(x[1..], sep);
      assert [x[0]] + x[1..] == x;
    }
  }

  /** Joining the pieces of a split gives back the string. */
  lemma {:induction false} JoinSplitOn(s: string, sep: char)
    ensures Join(SplitOn(s, sep), sep) == s
  {
    if s != [] {
      var rest := SplitOn(s[1..], sep);
      JoinSplitOn(s[1..], sep);
      if s[0] == sep {
        assert ([""] + rest)[1..] == rest;
      } else if |rest| == 1 {
        assert [s[0]] + rest[0] == s;
      } else {
        var r := [[s[0]] + rest[0]] + rest[1..];
        assert r[1..] == rest[1..];
        assert Join(rest, sep) == rest[0] + [sep] + Join(rest[1..], sep);
        assert s == [s[0]] + s[1..];
      }
    }
  }

  /** Splitting a join gives back the pieces, when no piece holds the separator. */
  lemma {:induction false} SplitOnJoin(xs: seq<string>, sep: char)
    requires |xs| >= 1
    requires forall i :: 0 <= i < |xs| ==> sep !in xs[i]
    ensures SplitOn(Join(xs, sep), sep) == xs
  {
    if |xs| == 1 {
      SplitOnNoSeparator(xs[0], sep);
    } else {
      SplitOnJoin(xs[1..], sep);
      SplitOnAppend(xs[0], Join(xs[1..], sep), sep);
      SplitOnNoSeparator(xs[0], sep);
      assert [xs[0]] + xs[1..] == xs;
    }
  }

  /** A string made only of separators splits into empty strings only. */
  lemma {:induction false} SplitOnOnlySeparators(s: string, sep: char)
    requires forall i :: 0 <= i < |s| ==> s[i] == sep
    ensures forall i :: 0 <= i < |SplitOn(s, sep)| ==> SplitOn(s, sep)[i] == ""
    decreases |s|
  {
    if s != [] {
      SplitOnOnlySeparators(s[1..], sep);
    }
  }
}

=== FILE: js_values.dfy ===
/**
 * The JavaScript values that `validateOptions`, `get` and
 * `objectValuesToString` inspect: their truthiness, their own properties
 * and their string conversion.
 */
module JsValues {
  import opened JsText

  /**
   * A JavaScript value. Numbers are integers; a function is known by its
   * source text, which is what converting it to a string yields.
   */
  datatype JsValue =
    | Undefined
    | Null
    | Bool(b: bool)
    | Num(n: int)
    | Str(s: string)
    | Function(source: string)
    | Object(fields: map<string, JsValue>)
    | Array(items: seq<JsValue>)

  /** `!!v` */
  predicate Truthy(v: JsValue) {
    match v
    case Undefined => false
    case Null => false
    case Bool(b) => b
    case Num(n) => n != 0
    case Str(s) => s != ""
    case _ => true
  }

  predicate IsDigit(c: char) {
    '0' <= c <= '9'
  }

  /** A canonical array index: decimal digits without a leading zero. */
  predicate IsArrayIndex(key: string) {
    && |key| > 0
    && (forall i :: 0 <= i < |key| ==> IsDigit(key[i]))
    && (key[0] != '0' || |key| == 1)
  }

  /** The value of a string of decimal digits. */
  function DecimalValue(digits: string): nat
    requires forall i :: 0 <= i < |digits| ==> IsDigit(digits[i])
  {
    if digits == [] then 0
    else
      var last := digits[|digits| - 1];
      assert IsDigit(last);
      DecimalValue(digits[..|digits| - 1]) * 10 + (last as int - '0' as int)
  }

  /** The decimal spelling of `n`, as `String(n)` writes an integer. */
  function NatToDecimal(n: nat): (r: string)
    ensures |r| > 0 && IsArrayIndex(r) && DecimalValue(r) == n
  {
    var last := ['0' + (n % 10) as char];
    if n < 10 then last
    else
      var front := NatToDecimal(n / 10);
      assert (front + last)[..|front + last| - 1] == front;
      front + last
  }

  function IntToDecimal(n: int): string {
    if n < 0 then "-" + NatToDecimal(-n) else NatToDecimal(n)
  }

  /**
   * `v[key]` for the own properties of `v`: the fields of an object, the
   * elements and `length` of an array, the characters and `length` of a
   * string. Every other lookup gives `undefined`.
   */
  function Prop(v: JsValue, key: string): JsValue {
    match v
    case Object(fields) => if key in fields then fields[key] else Undefined
    case Array(items) =>
      if IsArrayIndex(key) && DecimalValue(key) < |items| then items[DecimalValue(key)]
      else if key == "length" then Num(|items|)
      else Undefined
    case Str(s) =>
      if IsArrayIndex(key) && DecimalValue(key) < |s| then Str([s[DecimalValue(key)]])
      else if key == "length" then Num(|s|)
      else Undefined
    case _ => Undefined
  }

  /** `String(v)`, for every value but a symbol. */
  function ToString(v: JsValue): string
    decreases v, 1
  {
    match v
    case Undefined => "undefined"
    case Null => "null"
    case Bool(b) => if b then "true" else "false"
    case Num(n) => IntToDecimal(n)
    case Str(s) => s
    case Function(source) => source
    case Object(_) => "[object Object]"
    case Array(items) => Join(JoinElements(items), ',')
  }

  /** What `Array.prototype.join` writes for each element: nothing for `undefined` and `null`. */
  function JoinElements(items: seq<JsValue>): (r: seq<string>)
    ensures |r| == |items|
    decreases items, 0
  {
    seq(|items|, i requires 0 <= i < |items| =>
      if items[i].Undefined? || items[i].Null? then "" else ToString(items[i]))
  }
}

=== FILE: localized_element.dfy ===
/**
 * What a translation renders as (`getLocalizedElement` in src/utils.js):
 * the templated string itself, a span whose inner HTML is that string, or a
 * span whose children are the templated parts. A translation that mixes
 * elements with markup-bearing text is refused: the warning is raised and
 * the empty string is rendered instead.
 *
 * Every member takes the markup sniffer's unquoted-value class as the
 * parameter `corrected`: `false` is `hasHtmlTags` as the source writes it,
 * `true` the corrected class.
 */
module LocalizedElement {
  import opened Templating
  import opened HtmlTags

  /** The rendered result; the React elements themselves are abstract. */
  datatype Element =
    | Plain(text: string)                 // the string is returned as it is
    | InnerHtmlSpan(html: string)         // `<span dangerouslySetInnerHTML={{__html: html}}>`
    | ChildrenSpan(children: seq<DataValue>)  // `<span>{...children}</span>`

  /** Some string part of a mixed result holds markup. */
  predicate HasMarkupText(parts: seq<DataValue>, corrected: bool) {
    exists i :: 0 <= i < |parts| && parts[i].Str? && HasMarkup(parts[i].s, corrected)
  }

  /** The element for `translation` with `data`, as `getLocalizedElement` builds it. */
  function Localized(translation: string, data: Data, renderInnerHtml: bool, corrected: bool): Element
    requires ValidData(data)
  {
    match Templater(translation, data)
    case Text(s) => if renderInnerHtml && HasMarkup(s, corrected) then InnerHtmlSpan(s) else Plain(s)
    case Parts(parts) => if HasMarkupText(parts, corrected) then Plain("") else ChildrenSpan(parts)
  }

  /** Whether `getLocalizedElement` raises the mixed-markup warning. */
  predicate Warns(translation: string, data: Data, corrected: bool)
    requires ValidData(data)
  {
    match Templater(translation, data)
    case Text(_) => false
    case Parts(parts) => HasMarkupText(parts, corrected)
  }

  /**
   * `getLocalizedElement({translation, data, renderInnerHtml})`. The
   * returned flag says whether the warning was raised; the `for...of` loop
   * over the parts returns at the first string part that holds markup.
   */
  method GetLocalizedElement(translation: string, data: Data, renderInnerHtml: bool, corrected: bool)
    returns (r: Element, warned: bool)
    requires ValidData(data)
    ensures r == Localized(translation, data, renderInnerHtml, corrected)
    ensures warned == Warns(translation, data, corrected)
  {
    var resolved := Templater(translation, data);
    if resolved.Text? {
      var s := resolved.s;
      if renderInnerHtml && HasMarkup(s, corrected) {
        return InnerHtmlSpan(s), false;
      }
      return Plain(s), false;
    }
    var parts := resolved.parts;
    for i := 0 to |parts|
      invariant forall j :: 0 <= j < i ==> !(parts[j].Str? && HasMarkup(parts[j].s, corrected))
    {
      if parts[i].Str? && HasMarkup(parts[i].s, corrected) {
        return Plain(""), true;
      }
    }
    return ChildrenSpan(parts), false;
  }

  // ---------------------------------------------------------------------------
  // Properties

  /**
   * A span with children always holds at least one element and never a
   * string the sniffer flags: markup is rendered only through inner HTML,
   * and only for a result that is one string.
   */
  lemma ChildrenNeverHoldMarkup(translation: string, data: Data, renderInnerHtml: bool, corrected: bool)
    requires ValidData(data)
    ensures Localized(translation, data, renderInnerHtml, corrected).ChildrenSpan? ==>
              var children := Localized(translation, data, renderInnerHtml, corrected).children;
              && (exists i :: 0 <= i < |children| && children[i].Elem?)
              && (forall i :: 0 <= i < |children| && children[i].Str? ==> !HasMarkup(children[i].s, corrected))
  {
  }

  /** Inner HTML is used only when the caller asked for it, and the HTML is the templated string. */
  lemma InnerHtmlOnlyOnRequest(translation: string, data: Data, renderInnerHtml: bool, corrected: bool)
    requires ValidData(data)
    ensures Localized(translation, data, renderInnerHtml, corrected).InnerHtmlSpan? ==>
              && renderInnerHtml
              && Templater(translation, data) == Text(Localized(translation, data, renderInnerHtml, corrected).html)
              && HasMarkup(Localized(translation, data, renderInnerHtml, corrected).html, corrected)
  {
  }

  /** The empty string is rendered for a mixed result exactly when the warning is raised. */
  lemma WarningMeansEmptyText(translation: string, data: Data, renderInnerHtml: bool, corrected: bool)
    requires ValidData(data)
    ensures Warns(translation, data, corrected) ==> Localized(translation, data, renderInnerHtml, corrected) == Plain("")
    ensures Warns(translation, data, corrected) <==>
              Templater(translation, data).Parts? && Localized(translation, data, renderInnerHtml, corrected) == Plain("")
  {
  }

  /** A translation without data and without `<` or `&` renders as its own text. */
  lemma PlainTranslationRendersAsText(translation: string, renderInnerHtml: bool, corrected: bool)
    requires '<' !in translation && '&' !in translation
    ensures Localized(translation, [], renderInnerHtml, corrected) == Plain(translation)
    ensures !Warns(translation, [], corrected)
  {
    TemplaterWithoutData(translation);
    PlainTextIsNotMarkup(translation, corrected);
  }

  /** A flagged translation without data renders as inner HTML exactly when asked to. */
  lemma MarkupTranslationWithoutData(translation: string, renderInnerHtml: bool, corrected: bool)
    requires HasMarkup(translation, corrected)
    ensures Localized(translation, [], renderInnerHtml, corrected) ==
              if renderInnerHtml then InnerHtmlSpan(translation) else Plain(translation)
  {
    TemplaterWithoutData(translation);
  }

  /**
   * `<img src=x>` with `renderInnerHtml` set: the source as written renders
   * the plain string, the corrected sniffer an inner-HTML span.
   */
  lemma ExampleUnquotedTagRendering()
    ensures Localized(ImgTag, [], true, false) == Plain(ImgTag)
    ensures Localized(ImgTag, [], true, true) == InnerHtmlSpan(ImgTag)
  {
    TemplaterWithoutData(ImgTag);
    AsWrittenMissesUnquotedValue();
    IntendedFindsUnquotedValue();
  }
}

=== FILE: object_values.dfy ===
/**
 * `objectValuesToString(data)` in src/utils.js: the values of an object,
 * converted to strings and joined with commas. Where `Object.values`
 * exists, the values array is converted as a whole; otherwise every value
 * is converted with its own `toString`, which throws on `undefined` and
 * `null`.
 */
module ObjectValues {
  import opened Wrappers
  import opened JsText
  import opened JsValues

  /** An object's own enumerable properties, in enumeration order. */
  type Entries = seq<(string, JsValue)>

  /** The error `undefined.toString()` and `null.toString()` throw. */
  datatype TypeError = TypeError

  /** `Object.values(data)` */
  function Values(data: Entries): seq<JsValue> {
    seq(|data|, i requires 0 <= i < |data| => data[i].1)
  }

  /** Some value is `undefined` or `null`. */
  predicate HasNullish(data: Entries) {
    exists i :: 0 <= i < |data| && (data[i].1.Undefined? || data[i].1.Null?)
  }

  /** `objectValuesToString(data)`; `hasObjectValues` says whether the runtime provides `Object.values`. */
  function ObjectValuesToString(data: Entries, hasObjectValues: bool): Result<string, TypeError> {
    if hasObjectValues then Success(ToString(Array(Values(data))))
    else if HasNullish(data) then Failure(TypeError)
    else Success(Join(seq(|data|, i requires 0 <= i < |data| => ToString(data[i].1)), ','))
  }

  // ---------------------------------------------------------------------------
  // Properties

  /** Without `undefined` or `null` values both ways give the same string. */
  lemma BranchesAgree(data: Entries)
    requires !HasNullish(data)
    ensures ObjectValuesToString(data, false) == ObjectValuesToString(data, true)
  {
    var direct := seq(|data|, i requires 0 <= i < |data| => ToString(data[i].1));
    assert JoinElements(Values(data)) == direct;
  }

  /**
   * With an `undefined` or `null` value the fallback throws, while
   * `Object.values` writes an empty string in its place.
   */
  lemma BranchesDifferOnNullish(data: Entries, i: nat)
    requires i < |data| && (data[i].1.Undefined? || data[i].1.Null?)
    ensures ObjectValuesToString(data, false) == Failure(TypeError)
    ensures ObjectValuesToString(data, true).Success?
    ensures JoinElements(Values(data))[i] == ""
  {
  }

  /** String values without commas are recovered by splitting the result on commas. */
  lemma SplitRecoversValues(data: Entries, strings: seq<string>, hasObjectValues: bool)
    requires |data| >= 1 && |strings| == |data|
    requires forall i :: 0 <= i < |data| ==> data[i].1 == Str(strings[i]) && ',' !in strings[i]
    ensures ObjectValuesToString(data, hasObjectValues).Success?
    ensures SplitOn(ObjectValuesToString(data, hasObjectValues).value, ',') == strings
  {
    assert JoinElements(Values(data)) == strings;
    assert !HasNullish(data);
    assert seq(|data|, i requires 0 <= i < |data| => ToString(data[i].1)) == strings;
    SplitOnJoin(strings, ',');
  }

  /** `objectValuesToString({a: "x", b: 1, c: null})` is `"x,1,"` where `Object.values` exists. */
  lemma ExampleMixedValues()
    ensures ObjectValuesToString([("a", Str("x")), ("b", Num(1)), ("c", Null)], true) == Success("x,1,")
  {
    var data := [("a", Str("x")), ("b", Num(1)), ("c", Null)];
    assert ToString(Num(1)) == "1";
    assert JoinElements(Values(data)) == ["x", "1", ""];
    assert Join(["1", ""], ',') == "1" + "," + "";
    assert Join(["x", "1", ""], ',') == "x" + "," + Join(["1", ""], ',') == "x,1,";
    assert ObjectValuesToString(data, true) == Success(Join(JoinElements(Values(data)), ','));
  }
}

=== FILE: options.dfy ===
/**
 * `validateOptions` in src/utils.js: the initialize options pass through
 * unchanged when `onMissingTranslation` is absent or a function and
 * `renderToStaticMarkup` is `false` or a function; otherwise it throws.
 */
module OptionValidation {
  import opened Wrappers
  import opened JsValues

  /** The options object: a missing key reads as `undefined`. */
  type Options = map<string, JsValue>

  /** The two errors `validateOptions` throws. */
  datatype OptionError = InvalidOnMissingTranslation | InvalidRenderToStaticMarkup

  function OptionValue(options: Options, key: string): JsValue {
    if key in options then options[key] else Undefined
  }

  /** `options.onMissingTranslation` may be left out, or be a function. */
  predicate ValidOnMissingTranslation(options: Options) {
    OptionValue(options, "onMissingTranslation").Undefined? || OptionValue(options, "onMissingTranslation").Function?
  }

  /** `options.renderToStaticMarkup` must be exactly `false`, or a function; leaving it out is an error. */
  predicate ValidRenderToStaticMarkup(options: Options) {
    OptionValue(options, "renderToStaticMarkup") == Bool(false) || OptionValue(options, "renderToStaticMarkup").Function?
  }

  /** `validateOptions(options)`; the `onMissingTranslation` check comes first. */
  function ValidateOptions(options: Options): (r: Result<Options, OptionError>)
    ensures r.Success? ==> r.value == options
  {
    if !ValidOnMissingTranslation(options) then Failure(InvalidOnMissingTranslation)
    else if !ValidRenderToStaticMarkup(options) then Failure(InvalidRenderToStaticMarkup)
    else Success(options)
  }

  /**
   * The options pass exactly when both checks pass, and then unchanged;
   * each error is thrown exactly when its own check fails, the
   * `onMissingTranslation` error taking precedence.
   */
  lemma ValidateOptionsOutcome(options: Options)
    ensures ValidateOptions(options) == Success(options) <==>
              ValidOnMissingTranslation(options) && ValidRenderToStaticMarkup(options)
    ensures ValidateOptions(options) == Failure(InvalidOnMissingTranslation) <==>
              !ValidOnMissingTranslation(options)
    ensures ValidateOptions(options) == Failure(InvalidRenderToStaticMarkup) <==>
              ValidOnMissingTranslation(options) && !ValidRenderToStaticMarkup(options)
  {
  }

  /** Only the two checked options matter: changing any other option never changes the verdict. */
  lemma OtherOptionsIgnored(options: Options, key: string, value: JsValue)
    requires key != "onMissingTranslation" && key != "renderToStaticMarkup"
    ensures ValidateOptions(options[key := value]).Success? <==> ValidateOptions(options).Success?
    ensures ValidateOptions(options[key := value]).Failure? ==>
              ValidateOptions(options[key := value]).error == ValidateOptions(options).error
  {
    assert OptionValue(options[key := value], "onMissingTranslation") == OptionValue(options, "onMissingTranslation");
    assert OptionValue(options[key := value], "renderToStaticMarkup") == OptionValue(options, "renderToStaticMarkup");
  }

  /** `validateOptions({onMissingTranslation: "not a function"})` throws. */
  lemma ExampleOnMissingTranslationNotAFunction()
    ensures ValidateOptions(map["onMissingTranslation" := Str("not a function")]) ==
              Failure(InvalidOnMissingTranslation)
  {
  }

  /** `validateOptions({renderToStaticMarkup: false})` passes. */
  lemma ExampleStaticMarkupDisabled()
    ensures ValidateOptions(map["renderToStaticMarkup" := Bool(false)]) ==
              Success(map["renderToStaticMarkup" := Bool(false)])
  {
  }

  /** `validateOptions({})` throws: an absent `renderToStaticMarkup` is neither `false` nor a function. */
  lemma ExampleEmptyOptionsRejected()
    ensures ValidateOptions(map[]) == Failure(InvalidRenderToStaticMarkup)
  {
  }
}

=== FILE: path_get.dfy ===
/**
 * `get(obj, path, defaultValue)` in src/utils.js: the path is split on `.`,
 * empty segments are dropped, and the segments are followed from `obj`; a
 * step from a falsy value, or to a falsy property, gives the default value,
 * from which the remaining segments go on.
 */
module PathGet {
  import opened JsText
  import opened JsValues

  /** `path.split(".").filter(Boolean)` */
  function Segments(path: string): seq<string> {
    NonEmpty(SplitOn(path, '.'))
  }

  /** The `reduce` callback: `ret && ret[key] ? ret[key] : defaultValue`. */
  function Step(ret: JsValue, key: string, default: JsValue): (r: JsValue)
    ensures r == Prop(ret, key) || r == default
    ensures r != default ==> Truthy(r)
    ensures Truthy(ret) && Truthy(Prop(ret, key)) ==> r == Prop(ret, key)
    ensures !Truthy(ret) ==> r == default
  {
    if Truthy(ret) && Truthy(Prop(ret, key)) then Prop(ret, key) else default
  }

  /** `keys.reduce(step, ret)` */
  function Walk(ret: JsValue, keys: seq<string>, default: JsValue): JsValue
    decreases |keys|
  {
    if keys == [] then ret else Walk(Step(ret, keys[0], default), keys[1..], default)
  }

  /** `get(obj, path, defaultValue)` */
  function Get(obj: JsValue, path: string, default: JsValue): JsValue {
    Walk(obj, Segments(path), default)
  }

  /** Every segment is found, each from a truthy value, and each found value is truthy. */
  predicate Resolves(v: JsValue, keys: seq<string>)
    decreases |keys|
  {
    keys == [] || (Truthy(v) && Truthy(Prop(v, keys[0])) && Resolves(Prop(v, keys[0]), keys[1..]))
  }

  /** Following the segments by plain property access. */
  function Follow(v: JsValue, keys: seq<string>): JsValue
    decreases |keys|
  {
    if keys == [] then v else Follow(Prop(v, keys[0]), keys[1..])
  }

  // ---------------------------------------------------------------------------
  // Properties

  lemma {:induction false} WalkAppend(v: JsValue, xs: seq<string>, ys: seq<string>, default: JsValue)
    ensures Walk(v, xs + ys, default) == Walk(Walk(v, xs, default), ys, default)
    decreases |xs|
  {
    if xs != [] {
      assert (xs + ys)[1..] == xs[1..] + ys;
      WalkAppend(Step(v, xs[0], default), xs[1..], ys, default);
    } else {
      assert xs + ys == ys;
    }
  }

  /** A path with no segment (empty, or dots only) gives the object itself, truthy or not. */
  lemma EmptyPathGivesObject(obj: JsValue, path: string, default: JsValue)
    requires forall i :: 0 <= i < |path| ==> path[i] == '.'
    ensures Get(obj, path, default) == obj
  {
    SplitOnOnlySeparators(path, '.');
    var pieces := SplitOn(path, '.');
    assert forall x :: x in pieces ==> x == "";
    assert forall i :: 0 <= i < |Segments(path)| ==> Segments(path)[i] in Segments(path);
  }

  /** With at least one segment the result is a truthy property or the default value. */
  lemma {:induction false} WalkTruthyOrDefault(v: JsValue, keys: seq<string>, default: JsValue)
    requires keys != []
    ensures Truthy(Walk(v, keys, default)) || Walk(v, keys, default) == default
    decreases |keys|
  {
    if |keys| > 1 {
      WalkTruthyOrDefault(Step(v, keys[0], default), keys[1..], default);
    }
  }

  lemma GetTruthyOrDefault(obj: JsValue, path: string, default: JsValue)
    requires Segments(path) != []
    ensures Truthy(Get(obj, path, default)) || Get(obj, path, default) == default
  {
    WalkTruthyOrDefault(obj, Segments(path), default);
  }

  /** When every step finds a truthy property, the walk is plain property access and the default is never used. */
  lemma {:induction false} ResolvedWalkIsFollow(v: JsValue, keys: seq<string>, default: JsValue)
    requires Resolves(v, keys)
    ensures Walk(v, keys, default) == Follow(v, keys)
    decreases |keys|
  {
    if keys != [] {
      ResolvedWalkIsFollow(Prop(v, keys[0]), keys[1..], default);
    }
  }

  /** A failed step does not stop the walk: the remaining segments are looked up in the default value. */
  lemma FailedStepContinuesInDefault(v: JsValue, keys: seq<string>, default: JsValue)
    requires keys != [] && !(Truthy(v) && Truthy(Prop(v, keys[0])))
    ensures Walk(v, keys, default) == Walk(default, keys[1..], default)
  {
  }

  /** `get(obj, "p.q")` is `get(get(obj, "p"), "q")`, the same default serving both. */
  lemma GetCompose(obj: JsValue, p: string, q: string, default: JsValue)
    ensures Get(obj, p + "." + q, default) == Get(Get(obj, p, default), q, default)
  {
    SplitOnAppend(p, q, '.');
    assert p + "." + q == p + ['.'] + q;
    NonEmptyAppend(SplitOn(p, '.'), SplitOn(q, '.'));
    WalkAppend(obj, Segments(p), Segments(q), default);
  }

  /**
   * Splitting the path on `.` loses nothing but the dots, and every segment
   * that survives the filter is a non-empty key without a dot.
   */
  lemma SegmentsOfPath(path: string)
    ensures Join(SplitOn(path, '.'), '.') == path
    ensures forall i :: 0 <= i < |Segments(path)| ==> Segments(path)[i] != "" && '.' !in Segments(path)[i]
  {
    JoinSplitOn(path, '.');
    SplitOnPieces(path, '.');
    assert forall i :: 0 <= i < |Segments(path)| ==> Segments(path)[i] in SplitOn(path, '.');
  }

  /** A path without dots is one segment. */
  lemma SegmentsOfName(name: string)
    requires name != "" && '.' !in name
    ensures Segments(name) == [name]
  {
    SplitOnNoSeparator(name, '.');
    assert [name][1..] == [];
  }

  /** `get({a: {b: 2}}, "a.b")` is `2`. */
  lemma ExampleNested()
    ensures Get(Object(map["a" := Object(map["b" := Num(2)])]), "a.b", Undefined) == Num(2)
  {
    GetCompose(Object(map["a" := Object(map["b" := Num(2)])]), "a", "b", Undefined);
    assert "a" + "." + "b" == "a.b";
    SegmentsOfName("a");
    SegmentsOfName("b");
  }

  /** `get({a: {b: 0}}, "a.b", 99)` is `99`: a falsy property gives the default. */
  lemma ExampleFalsyGivesDefault()
    ensures Get(Object(map["a" := Object(map["b" := Num(0)])]), "a.b", Num(99)) == Num(99)
  {
    GetCompose(Object(map["a" := Object(map["b" := Num(0)])]), "a", "b", Num(99));
    assert "a" + "." + "b" == "a.b";
  }
}

=== FILE: templater.dfy ===
/**
 * The `${name}` placeholder templater (`templater` in src/utils.js).
 *
 * The template is split on the placeholder pattern `(\${\s*[^\s}]+\s*})`
 * (the capture group keeps the placeholders as pieces), empty pieces are
 * dropped, and every piece is replaced by the value of the first data key,
 * in for-in order, whose own pattern `\${\s*key\s*}` occurs in it,
 * case-insensitively. If some piece became an element the pieces are the
 * result; otherwise they are concatenated.
 */
module Templating {
  import opened Wrappers
  import opened JsText

  /** A value of the interpolation data: a string, or an opaque renderable element. */
  datatype DataValue = Str(s: string) | Elem(id: nat)

  /** JavaScript truthiness restricted to data values: an element is an object, hence truthy; a string when non-empty. */
  predicate TruthyDataValue(v: DataValue) {
    match v
    case Str(s) => s != ""
    case Elem(_) => true
  }

  /** What the templater returns: a string, or the ordered pieces once an element was substituted. */
  datatype Resolved = Text(s: string) | Parts(parts: seq<DataValue>)

  /** The interpolation data as (key, value) pairs in for-in order. */
  type Data = seq<(string, DataValue)>

  /**
   * A key is spliced into a regular expression unescaped; the model admits the
   * keys for which that expression means "this key literally": runs of `\w`.
   */
  predicate ValidKey(key: string) {
    |key| > 0 && forall i :: 0 <= i < |key| ==> IsWordChar(key[i])
  }

  /** The keys of a JavaScript object: admissible and pairwise distinct. */
  predicate ValidData(data: Data) {
    && (forall i :: 0 <= i < |data| ==> ValidKey(data[i].0))
    && (forall i, j :: 0 <= i < j < |data| ==> data[i].0 != data[j].0)
  }

  // ---------------------------------------------------------------------------
  // The split pattern

  /**
   * Where the match of `\${\s*[^\s}]+\s*}` that starts exactly at `p` ends.
   * The three classes are pairwise disjoint at their borders, so the greedy
   * runs are the only way the pattern can match.
   */
  function PlaceholderEnd(s: string, p: nat): (e: Option<nat>)
    requires p <= |s|
    ensures e.Some? ==> p + 4 <= e.value <= |s| && s[p] == '$' && s[p + 1] == '{' && s[e.value - 1] == '}'
  {
    if p + 1 < |s| && s[p] == '$' && s[p + 1] == '{' then
      var a := RunEnd(s, p + 2, Space);
      var b := RunEnd(s, a, PlaceholderName);
      var c := RunEnd(s, b, Space);
      if a < b && c < |s| && s[c] == '}' then Some(c + 1) else None
    else None
  }

  /** `s[p..e]` is `${`, spaces, a non-empty name without spaces or `}`, spaces, `}`. */
  ghost predicate PlaceholderSpan(s: string, p: nat, e: nat) {
    && p + 4 <= e <= |s| && s[p] == '$' && s[p + 1] == '{' && s[e - 1] == '}'
    && exists a, b :: p + 2 <= a < b <= e - 1
         && AllInClass(s, p + 2, a, Space)
         && AllInClass(s, a, b, PlaceholderName)
         && AllInClass(s, b, e - 1, Space)
  }

  /** What the greedy scanner finds is a span of the pattern. */
  lemma ScannerFindsSpan(s: string, p: nat, e: nat)
    requires p <= |s| && PlaceholderEnd(s, p) == Some(e)
    ensures PlaceholderSpan(s, p, e)
  {
    var a := RunEnd(s, p + 2, Space);
    var b := RunEnd(s, a, PlaceholderName);
    assert AllInClass(s, p + 2, a, Space) && AllInClass(s, a, b, PlaceholderName);
  }

  /** Every span of the pattern is what the greedy scanner finds. */
  lemma SpanIsFoundByScanner(s: string, p: nat, e: nat)
    requires p <= |s| && PlaceholderSpan(s, p, e)
    ensures PlaceholderEnd(s, p) == Some(e)
  {
    var a, b :| p + 2 <= a < b <= e - 1
       && AllInClass(s, p + 2, a, Space)
       && AllInClass(s, a, b, PlaceholderName)
       && AllInClass(s, b, e - 1, Space);
    assert InClass(s[a], PlaceholderName);
    RunEndUnique(s, p + 2, Space, a);
    RunEndUnique(s, a, PlaceholderName, b);
    RunEndUnique(s, b, Space, e - 1);
  }

  /** The greedy scanner finds exactly the spans the pattern describes. */
  lemma PlaceholderEndIsPattern(s: string, p: nat, e: nat)
    requires p <= |s|
    ensures PlaceholderEnd(s, p) == Some(e) <==> PlaceholderSpan(s, p, e)
  {
    if PlaceholderEnd(s, p) == Some(e) {
      ScannerFindsSpan(s, p, e);
    }
    if PlaceholderSpan(s, p, e) {
      SpanIsFoundByScanner(s, p, e);
    }
  }

  /** A span inside the window `s[off..off + len]` is a span at the same place in `s`. */
  lemma SpanFromWindow(s: string, off: nat, len: nat, p: nat, e: nat)
    requires off + len <= |s| && PlaceholderSpan(s[off..off + len], p, e)
    ensures PlaceholderSpan(s, off + p, off + e)
  {
    var t := s[off..off + len];
    var a, b :| p + 2 <= a < b <= e - 1
       && AllInClass(t, p + 2, a, Space)
       && AllInClass(t, a, b, PlaceholderName)
       && AllInClass(t, b, e - 1, Space);
    assert forall k :: off + p <= k < off + e ==> s[k] == t[k - off];
    assert AllInClass(s, off + p + 2, off + a, Space);
    assert AllInClass(s, off + a, off + b, PlaceholderName);
    assert AllInClass(s, off + b, off + e - 1, Space);
  }

  /** A span of `s` that lies inside the window `s[off..off + len]` is a span of the window. */
  lemma SpanToWindow(s: string, off: nat, len: nat, p: nat, e: nat)
    requires off + len <= |s| && p <= e <= len && PlaceholderSpan(s, off + p, off + e)
    ensures PlaceholderSpan(s[off..off + len], p, e)
  {
    var t := s[off..off + len];
    var a, b :| off + p + 2 <= a < b <= off + e - 1
       && AllInClass(s, off + p + 2, a, Space)
       && AllInClass(s, a, b, PlaceholderName)
       && AllInClass(s, b, off + e - 1, Space);
    assert forall k :: p <= k < e ==> t[k] == s[k + off];
    assert AllInClass(t, p + 2, a - off, Space);
    assert AllInClass(t, a - off, b - off, PlaceholderName);
    assert AllInClass(t, b - off, e - 1, Space);
  }

  /** A match inside the window `s[off..off + len]` is a match at the same place in `s`. */
  lemma PlaceholderEndFromWindow(s: string, off: nat, len: nat, p: nat, e: nat)
    requires off + len <= |s| && p <= len && PlaceholderEnd(s[off..off + len], p) == Some(e)
    ensures PlaceholderEnd(s, off + p) == Some(off + e)
  {
    PlaceholderEndIsPattern(s[off..off + len], p, e);
    SpanFromWindow(s, off, len, p, e);
    PlaceholderEndIsPattern(s, off + p, off + e);
  }

  /** A match in `s` that ends inside the window `s[off..off + len]` is a match at the same place in the window. */
  lemma PlaceholderEndToWindow(s: string, off: nat, len: nat, p: nat, e: nat)
    requires off + len <= |s| && p <= e <= len && PlaceholderEnd(s, off + p) == Some(off + e)
    ensures PlaceholderEnd(s[off..off + len], p) == Some(e)
  {
    PlaceholderEndIsPattern(s, off + p, off + e);
    SpanToWindow(s, off, len, p, e);
    PlaceholderEndIsPattern(s[off..off + len], p, e);
  }

  /** `s.split(/(\${\s*[^\s}]+\s*})/gmi)` scanning from `q`, the current piece having begun at `last`. */
  function SplitFrom(s: string, last: nat, q: nat): seq<string>
    requires last <= q <= |s|
    decreases |s| - q
  {
    if q == |s| then [s[last..]]
    else
      match PlaceholderEnd(s, q)
      case Some(e) => [s[last..q], s[q..e]] + SplitFrom(s, e, e)
      case None => SplitFrom(s, last, q + 1)
  }

  /** The template split on the placeholder pattern, with empty pieces dropped. */
  function Pieces(template: string): seq<string> {
    NonEmpty(SplitFrom(template, 0, 0))
  }

  lemma {:induction false} SplitFromConcat(s: string, last: nat, q: nat)
    requires last <= q <= |s|
    ensures Concat(SplitFrom(s, last, q)) == s[last..]
    decreases |s| - q
  {
    if q == |s| {
      assert Concat([s[last..]]) == s[last..] + Concat([]);
    } else {
      match PlaceholderEnd(s, q)
      case Some(e) =>
        SplitFromConcat(s, e, e);
        ConcatAppend([s[last..q], s[q..e]], SplitFrom(s, e, e));
        assert Concat([s[last..q], s[q..e]]) == s[last..q] + (s[q..e] + Concat([]));
        assert s[last..] == s[last..q] + s[q..e] + s[e..];
      case None =>
        SplitFromConcat(s, last, q + 1);
    }
  }

  /** Splitting with the placeholders kept, then dropping empty pieces, loses no character. */
  lemma PiecesConcat(template: string)
    ensures Concat(Pieces(template)) == template
    ensures forall i :: 0 <= i < |Pieces(template)| ==> Pieces(template)[i] != ""
  {
    SplitFromConcat(template, 0, 0);
    ConcatNonEmpty(SplitFrom(template, 0, 0));
  }

  /** The whole string is one match of the placeholder pattern. */
  predicate IsPlaceholder(t: string) {
    PlaceholderEnd(t, 0) == Some(|t|)
  }

  /** The placeholder pattern matches nowhere in the string. */
  predicate PlaceholderFree(t: string) {
    forall p :: 0 <= p < |t| ==> PlaceholderEnd(t, p).None?
  }

  lemma TextPieceIsFree(s: string, last: nat, q: nat)
    requires last <= q <= |s|
    requires forall p :: last <= p < q ==> PlaceholderEnd(s, p).None?
    ensures PlaceholderFree(s[last..q])
  {
    forall p | 0 <= p < q - last ensures PlaceholderEnd(s[last..q], p).None? {
      if PlaceholderEnd(s[last..q], p).Some? {
        PlaceholderEndFromWindow(s, last, q - last, p, PlaceholderEnd(s[last..q], p).value);
      }
    }
  }

  /** A piece is one whole placeholder, or text in which the placeholder pattern matches nowhere. */
  predicate WellShaped(piece: string) {
    IsPlaceholder(piece) || PlaceholderFree(piece)
  }

  /** The match the scanner finds at `q` is, cut out, one whole placeholder. */
  lemma MatchIsPlaceholder(s: string, q: nat, e: nat)
    requires q <= e <= |s| && PlaceholderEnd(s, q) == Some(e)
    ensures IsPlaceholder(s[q..e])
  {
    PlaceholderEndToWindow(s, q, e - q, 0, e - q);
  }

  lemma {:induction false} SplitFromShape(s: string, last: nat, q: nat)
    requires last <= q <= |s|
    requires forall p :: last <= p < q ==> PlaceholderEnd(s, p).None?
    ensures forall i :: 0 <= i < |SplitFrom(s, last, q)| ==> WellShaped(SplitFrom(s, last, q)[i])
    decreases |s| - q
  {
    if q == |s| {
      TextPieceIsFree(s, last, q);
      assert s[last..] == s[last..q];
    } else {
      match PlaceholderEnd(s, q)
      case Some(e) =>
        TextPieceIsFree(s, last, q);
        MatchIsPlaceholder(s, q, e);
        SplitFromShape(s, e, e);
        assert WellShaped(s[last..q]) && WellShaped(s[q..e]);
      case None =>
        SplitFromShape(s, last, q + 1);
    }
  }

  /** Every piece is either one whole placeholder or text in which the placeholder pattern matches nowhere. */
  lemma PiecesShape(template: string)
    ensures forall piece :: piece in Pieces(template) ==> WellShaped(piece)
  {
    SplitFromShape(template, 0, 0);
  }

  /** A string with no placeholder in it is a single piece. */
  lemma {:induction false} SplitFromFree(s: string, last: nat, q: nat)
    requires last <= q <= |s|
    requires forall p :: q <= p < |s| ==> PlaceholderEnd(s, p).None?
    ensures SplitFrom(s, last, q) == [s[last..]]
    decreases |s| - q
  {
    if q < |s| {
      SplitFromFree(s, last, q + 1);
    }
  }

  /** A placeholder on its own is a single piece. */
  lemma PlaceholderIsOnePiece(t: string)
    requires IsPlaceholder(t)
    ensures Pieces(t) == [t]
  {
    assert t[0..0] == "" && t[0..|t|] == t && t[|t|..] == "";
    assert SplitFrom(t, |t|, |t|) == [""];
    assert SplitFrom(t, 0, 0) == [t[0..0], t[0..|t|]] + SplitFrom(t, |t|, |t|);
    var split := ["", t, ""];
    assert split[1..] == [t, ""] && [t, ""][1..] == [""] && [""][1..] == [];
    assert SplitFrom(t, 0, 0) == split;
    assert NonEmpty([""]) == [];
    assert NonEmpty([t, ""]) == [t];
    assert NonEmpty(split) == NonEmpty(split[1..]);
  }

  // ---------------------------------------------------------------------------
  // Matching one data key

  /** `\${\s*key\s*}` with the `i` flag matches at `p`, the key spliced in as it is. */
  predicate KeyMatchAt(key: string, s: string, p: nat)
    requires p <= |s|
  {
    && p + 1 < |s| && s[p] == '$' && s[p + 1] == '{'
    && var a := RunEnd(s, p + 2, Space);
       && a + |key| <= |s| && SameIgnoringCase(s[a..a + |key|], key)
       && var c := RunEnd(s, a + |key|, Space);
          c < |s| && s[c] == '}'
  }

  /** `regex.test(piece)` for that fresh expression: a match anywhere in the piece. */
  predicate KeyOccurs(key: string, piece: string) {
    exists p :: 0 <= p < |piece| && KeyMatchAt(key, piece, p)
  }

  /** Wherever an admissible key's pattern matches, the placeholder pattern matches too. */
  lemma KeyMatchIsPlaceholder(key: string, s: string, p: nat)
    requires ValidKey(key) && p <= |s| && KeyMatchAt(key, s, p)
    ensures PlaceholderEnd(s, p).Some?
  {
    var a := RunEnd(s, p + 2, Space);
    var n := a + |key|;
    var c := RunEnd(s, n, Space);
    SameIgnoringCaseWord(s[a..n], key);
    forall k | a <= k < n ensures InClass(s[k], PlaceholderName) {
      assert s[k] == s[a..n][k - a];
    }
    assert !InClass(s[n], PlaceholderName);
    RunEndUnique(s, a, PlaceholderName, n);
  }

  /** No admissible key occurs in text where the placeholder pattern matches nowhere. */
  lemma NoKeyInFreeText(key: string, t: string)
    requires ValidKey(key) && PlaceholderFree(t)
    ensures !KeyOccurs(key, t)
  {
    if KeyOccurs(key, t) {
      var p :| 0 <= p < |t| && KeyMatchAt(key, t, p);
      KeyMatchIsPlaceholder(key, t, p);
    }
  }

  /** `${`, spaces, a name, spaces, `}`, spelled out character by character. */
  predicate SpacedPlaceholder(t: string, w1: nat, name: string, w2: nat) {
    && |t| == 2 + w1 + |name| + w2 + 1 && t[0] == '$' && t[1] == '{' && t[|t| - 1] == '}'
    && (forall k :: 2 <= k < 2 + w1 ==> IsSpace(t[k]))
    && (forall k :: 0 <= k < |name| ==> t[2 + w1 + k] == name[k])
    && (forall k :: 2 + w1 + |name| <= k < |t| - 1 ==> IsSpace(t[k]))
  }

  /** A spaced word is one placeholder. */
  lemma SpacedWordIsPlaceholder(t: string, w1: nat, name: string, w2: nat)
    requires SpacedPlaceholder(t, w1, name, w2) && ValidKey(name)
    ensures IsPlaceholder(t)
  {
    var a := 2 + w1;
    var b := a + |name|;
    forall k | a <= k < b ensures InClass(t[k], PlaceholderName) {
      assert t[a + (k - a)] == name[k - a];
    }
    assert AllInClass(t, 2, a, Space) && AllInClass(t, a, b, PlaceholderName) && AllInClass(t, b, |t| - 1, Space);
    assert PlaceholderSpan(t, 0, |t|);
    PlaceholderEndIsPattern(t, 0, |t|);
  }

  /** In a spaced name only the `$` at the start can open a key's match. */
  lemma SpacedDollarAtStart(t: string, w1: nat, name: string, w2: nat)
    requires SpacedPlaceholder(t, w1, name, w2) && ValidKey(name)
    ensures forall k :: 0 < k < |t| ==> t[k] != '$'
  {
    var a := 2 + w1;
    forall k | 0 < k < |t| ensures t[k] != '$' {
      if a <= k < a + |name| {
        assert t[a + (k - a)] == name[k - a];
      }
    }
  }

  /** A key's pattern matches a spaced name only where the name stands, so the key is the name up to case. */
  lemma SpacedKeyMatchesName(t: string, w1: nat, name: string, w2: nat, key: string, p: nat)
    requires SpacedPlaceholder(t, w1, name, w2) && ValidKey(name) && ValidKey(key)
    requires p < |t| && KeyMatchAt(key, t, p)
    ensures SameIgnoringCase(name, key)
  {
    var a := 2 + w1;
    var b := a + |name|;
    SpacedDollarAtStart(t, w1, name, w2);
    assert p == 0;
    forall k | a <= k < b ensures IsWordChar(t[k]) {
      assert t[a + (k - a)] == name[k - a];
    }
    RunEndUnique(t, 2, Space, a);
    var n := a + |key|;
    SameIgnoringCaseWord(t[a..n], key);
    forall k | a <= k < n ensures IsWordChar(t[k]) {
      assert t[k] == t[a..n][k - a];
    }
    assert !IsWordChar(t[b]);
    assert n <= b;
    var c := RunEnd(t, n, Space);
    assert t[c] == '}';
    assert n == b;
    assert t[a..b] == name;
  }

  /** The pattern of a key occurs in a spaced name exactly when the key is the name up to ASCII case. */
  lemma SpacedKeyOccurs(t: string, w1: nat, name: string, w2: nat, key: string)
    requires SpacedPlaceholder(t, w1, name, w2) && ValidKey(name) && ValidKey(key)
    ensures KeyOccurs(key, t) <==> SameIgnoringCase(name, key)
  {
    var a := 2 + w1;
    var b := a + |name|;
    if SameIgnoringCase(name, key) {
      SameIgnoringCaseWord(name, key);
      assert !IsSpace(t[a]) by {
        assert t[a + 0] == name[0];
      }
      RunEndUnique(t, 2, Space, a);
      RunEndUnique(t, b, Space, |t| - 1);
      assert t[a..b] == name;
      assert KeyMatchAt(key, t, 0);
    }
    if KeyOccurs(key, t) {
      var p :| 0 <= p < |t| && KeyMatchAt(key, t, p);
      SpacedKeyMatchesName(t, w1, name, w2, key, p);
    }
  }

  // ---------------------------------------------------------------------------
  // Resolving one piece

  /**
   * The for-in loop for one piece, `matched` being the value found so far:
   * it stops as soon as that value is truthy, and otherwise takes the value
   * of every key whose pattern occurs in the piece.
   */
  function Lookup(piece: string, data: Data, matched: Option<DataValue>): Option<DataValue>
    decreases |data|
  {
    if data == [] || (matched.Some? && TruthyDataValue(matched.value)) then matched
    else Lookup(piece, data[1..], if KeyOccurs(data[0].0, piece) then Some(data[0].1) else matched)
  }

  /** What one piece becomes: the value the loop settled on, or the piece itself when no key matched. */
  function PieceValue(piece: string, data: Data): DataValue {
    match Lookup(piece, data, None)
    case None => Str(piece)
    case Some(v) => v
  }

  lemma {:induction false} LookupFirstTruthy(piece: string, data: Data, matched: Option<DataValue>, i: nat)
    requires i < |data| && KeyOccurs(data[i].0, piece) && TruthyDataValue(data[i].1)
    requires forall j :: 0 <= j < i && KeyOccurs(data[j].0, piece) ==> !TruthyDataValue(data[j].1)
    requires matched.None? || !TruthyDataValue(matched.value)
    ensures Lookup(piece, data, matched) == Some(data[i].1)
    decreases i
  {
    var next := if KeyOccurs(data[0].0, piece) then Some(data[0].1) else matched;
    if i == 0 {
      assert Lookup(piece, data[1..], next) == next;
    } else {
      assert forall j :: 0 <= j < i - 1 ==> data[1..][j] == data[j + 1];
      LookupFirstTruthy(piece, data[1..], next, i - 1);
    }
  }

  lemma {:induction false} LookupNoTruthy(piece: string, data: Data, matched: Option<DataValue>)
    requires forall j :: 0 <= j < |data| && KeyOccurs(data[j].0, piece) ==> !TruthyDataValue(data[j].1)
    requires matched.None? || !TruthyDataValue(matched.value)
    ensures Lookup(piece, data, matched) ==
              if exists j :: 0 <= j < |data| && KeyOccurs(data[j].0, piece) then Some(Str("")) else matched
    decreases |data|
  {
    if data != [] {
      var next := if KeyOccurs(data[0].0, piece) then Some(data[0].1) else matched;
      assert forall j :: 0 <= j < |data| - 1 ==> data[1..][j] == data[j + 1];
      LookupNoTruthy(piece, data[1..], next);
      if KeyOccurs(data[0].0, piece) {
        assert data[0].1 == Str("");
      } else if exists j :: 0 <= j < |data| && KeyOccurs(data[j].0, piece) {
        var j :| 0 <= j < |data| && KeyOccurs(data[j].0, piece);
        assert data[1..][j - 1] == data[j];
      }
    }
  }

  /** The first key, in for-in order, whose pattern occurs in the piece and whose value is truthy wins. */
  lemma PieceValueFirstTruthyMatch(piece: string, data: Data, i: nat)
    requires i < |data| && KeyOccurs(data[i].0, piece) && TruthyDataValue(data[i].1)
    requires forall j :: 0 <= j < i && KeyOccurs(data[j].0, piece) ==> !TruthyDataValue(data[j].1)
    ensures PieceValue(piece, data) == data[i].1
  {
    LookupFirstTruthy(piece, data, None, i);
  }

  /**
   * Without a truthy match the piece stays as it is when no key's pattern
   * occurs, and becomes the empty string when only keys mapped to `""` match.
   */
  lemma PieceValueNoTruthyMatch(piece: string, data: Data)
    requires forall j :: 0 <= j < |data| && KeyOccurs(data[j].0, piece) ==> !TruthyDataValue(data[j].1)
    ensures PieceValue(piece, data) ==
              if exists j :: 0 <= j < |data| && KeyOccurs(data[j].0, piece) then Str("") else Str(piece)
  {
    LookupNoTruthy(piece, data, None);
  }

  /** The callback that `map` applies to each piece, with its for-in loop and early `break`. */
  method ResolvePiece(piece: string, data: Data) returns (v: DataValue)
    requires ValidData(data)
    ensures v == PieceValue(piece, data)
  {
    var matched: Option<DataValue> := None;
    var i := 0;
    while i < |data|
      invariant 0 <= i <= |data|
      invariant Lookup(piece, data[i..], matched) == Lookup(piece, data, None)
    {
      if matched.Some? && TruthyDataValue(matched.value) {
        break;
      }
      var (key, value) := data[i];
      if KeyOccurs(key, piece) {
        matched := Some(value);
      }
      assert data[i..][1..] == data[i + 1..];
      i := i + 1;
    }
    v := if matched.None? then Str(piece) else matched.value;
  }

  // ---------------------------------------------------------------------------
  // The whole template

  /** The `map` step: what every piece becomes, in order. */
  function ResolvedParts(pieces: seq<string>, data: Data): seq<DataValue> {
    seq(|pieces|, i requires 0 <= i < |pieces| => PieceValue(pieces[i], data))
  }

  /** `parts.some(React.isValidElement)` */
  predicate HasElement(parts: seq<DataValue>) {
    exists i :: 0 <= i < |parts| && parts[i].Elem?
  }

  /** The `reduce` step, reached only when every part is a string. */
  function TextOf(parts: seq<DataValue>): string
    requires !HasElement(parts)
  {
    if parts == [] then "" else parts[0].s + TextOf(parts[1..])
  }

  /** `templater(strings, data)`; the empty template gives the empty string. */
  function Templater(template: string, data: Data): Resolved
    requires ValidData(data)
  {
    if template == "" then Text("")
    else
      var parts := ResolvedParts(Pieces(template), data);
      if HasElement(parts) then Parts(parts) else Text(TextOf(parts))
  }

  lemma {:induction false} TextOfStrings(pieces: seq<string>)
    ensures !HasElement(seq(|pieces|, i requires 0 <= i < |pieces| => Str(pieces[i])))
    ensures TextOf(seq(|pieces|, i requires 0 <= i < |pieces| => Str(pieces[i]))) == Concat(pieces)
  {
    var parts := seq(|pieces|, i requires 0 <= i < |pieces| => Str(pieces[i]));
    if pieces != [] {
      TextOfStrings(pieces[1..]);
      assert parts[1..] == seq(|pieces[1..]|, i requires 0 <= i < |pieces[1..]| => Str(pieces[1..][i]));
    }
  }

  /** With no data every template comes back unchanged. */
  lemma TemplaterWithoutData(template: string)
    ensures Templater(template, []) == Text(template)
  {
    if template != "" {
      var pieces := Pieces(template);
      assert ResolvedParts(pieces, []) == seq(|pieces|, i requires 0 <= i < |pieces| => Str(pieces[i]));
      TextOfStrings(pieces);
      PiecesConcat(template);
    }
  }

  /** A template in which the placeholder pattern matches nowhere comes back unchanged, whatever the data. */
  lemma TemplaterLiteralText(template: string, data: Data)
    requires ValidData(data) && PlaceholderFree(template)
    ensures Templater(template, data) == Text(template)
  {
    if template != "" {
      SplitFromFree(template, 0, 0);
      assert Pieces(template) == [template];
      forall j | 0 <= j < |data| ensures !KeyOccurs(data[j].0, template) {
        NoKeyInFreeText(data[j].0, template);
      }
      PieceValueNoTruthyMatch(template, data);
      assert ResolvedParts([template], data) == [Str(template)];
      assert TextOf([Str(template)]) == template + TextOf([]);
    }
  }

  /**
   * Only placeholders are ever substituted: every piece that is not a whole
   * placeholder comes through as its own text, and the pieces spell the template.
   */
  lemma TemplaterKeepsText(template: string, data: Data)
    requires ValidData(data)
    ensures Concat(Pieces(template)) == template
    ensures forall i :: 0 <= i < |Pieces(template)| && !IsPlaceholder(Pieces(template)[i]) ==>
              ResolvedParts(Pieces(template), data)[i] == Str(Pieces(template)[i])
  {
    PiecesConcat(template);
    PiecesShape(template);
    var pieces := Pieces(template);
    forall i | 0 <= i < |pieces| && !IsPlaceholder(pieces[i])
      ensures ResolvedParts(pieces, data)[i] == Str(pieces[i])
    {
      assert pieces[i] in pieces;
      forall j | 0 <= j < |data| ensures !KeyOccurs(data[j].0, pieces[i]) {
        NoKeyInFreeText(data[j].0, pieces[i]);
      }
      PieceValueNoTruthyMatch(pieces[i], data);
    }
  }

  /**
   * A template that is one placeholder becomes the value of the first key,
   * in for-in order, whose pattern occurs in it with a truthy value: an
   * element makes a one-part result, a string the text itself.
   */
  lemma TemplaterSubstitutes(template: string, data: Data, i: nat)
    requires ValidData(data) && IsPlaceholder(template)
    requires i < |data| && KeyOccurs(data[i].0, template) && TruthyDataValue(data[i].1)
    requires forall j :: 0 <= j < i && KeyOccurs(data[j].0, template) ==> !TruthyDataValue(data[j].1)
    ensures Templater(template, data) ==
              match data[i].1
              case Str(s) => Text(s)
              case Elem(_) => Parts([data[i].1])
  {
    PlaceholderIsOnePiece(template);
    PieceValueFirstTruthyMatch(template, data, i);
    var parts := ResolvedParts([template], data);
    assert parts == [data[i].1];
    if data[i].1.Str? {
      assert TextOf(parts) == data[i].1.s + TextOf([]);
    }
  }

  /** A placeholder that no key's pattern occurs in stays as its own literal text. */
  lemma TemplaterUnmatchedPlaceholder(template: string, data: Data)
    requires ValidData(data) && IsPlaceholder(template)
    requires forall j :: 0 <= j < |data| ==> !KeyOccurs(data[j].0, template)
    ensures Templater(template, data) == Text(template)
  {
    PlaceholderIsOnePiece(template);
    PieceValueNoTruthyMatch(template, data);
    assert ResolvedParts([template], data) == [Str(template)];
    assert TextOf([Str(template)]) == template + TextOf([]);
  }

  /** The strings of parts that hold no element. */
  function Strings(parts: seq<DataValue>): seq<string>
    requires !HasElement(parts)
  {
    seq(|parts|, i requires 0 <= i < |parts| => parts[i].s)
  }

  /** The `reduce` that appends every part to `""` concatenates the parts in order. */
  lemma {:induction false} TextOfIsConcat(parts: seq<DataValue>)
    requires !HasElement(parts)
    ensures TextOf(parts) == Concat(Strings(parts))
  {
    if parts != [] {
      TextOfIsConcat(parts[1..]);
      assert Strings(parts)[1..] == Strings(parts[1..]);
    }
  }

  /**
   * The result is the sequence of resolved pieces exactly when one of them
   * is an element, and otherwise their in-order concatenation.
   */
  lemma TemplaterResultShape(template: string, data: Data)
    requires ValidData(data) && template != ""
    ensures var parts := ResolvedParts(Pieces(template), data);
            && (HasElement(parts) ==> Templater(template, data) == Parts(parts))
            && (!HasElement(parts) ==> Templater(template, data) == Text(Concat(Strings(parts))))
  {
    var parts := ResolvedParts(Pieces(template), data);
    if !HasElement(parts) {
      TextOfIsConcat(parts);
    }
  }

  /** A template that is one spaced name takes the value of the first key matching that name up to case with a truthy value. */
  lemma TemplaterSpacedName(t: string, w1: nat, name: string, w2: nat, data: Data, i: nat)
    requires SpacedPlaceholder(t, w1, name, w2) && ValidKey(name) && ValidData(data)
    requires i < |data| && SameIgnoringCase(name, data[i].0) && TruthyDataValue(data[i].1)
    requires forall j :: 0 <= j < i && SameIgnoringCase(name, data[j].0) ==> !TruthyDataValue(data[j].1)
    ensures Templater(t, data) ==
              match data[i].1
              case Str(s) => Text(s)
              case Elem(_) => Parts([data[i].1])
  {
    SpacedWordIsPlaceholder(t, w1, name, w2);
    forall j | 0 <= j < |data| ensures KeyOccurs(data[j].0, t) <==> SameIgnoringCase(name, data[j].0) {
      SpacedKeyOccurs(t, w1, name, w2, data[j].0);
    }
    TemplaterSubstitutes(t, data, i);
  }

  /** `templater("${ name }", {name: "Ann"})` is `"Ann"`. */
  lemma ExampleSpacedPlaceholder()
    ensures Templater("${ name }", [("name", Str("Ann"))]) == Text("Ann")
  {
    TemplaterSpacedName("${ name }", 1, "name", 1, [("name", Str("Ann"))], 0);
  }

  /** Matching ignores case: `${NAME}` picks up `data.name`. */
  lemma ExampleCaseInsensitive()
    ensures Templater("${NAME}", [("name", Str("Ann"))]) == Text("Ann")
  {
    TemplaterSpacedName("${NAME}", 0, "NAME", 0, [("name", Str("Ann"))], 0);
  }

  /** A key mapped to `""` does not stop the loop: a later key that matches up to case overrides it. */
  lemma ExampleEmptyMatchOverridden()
    ensures Templater("${name}", [("name", Str("")), ("NAME", Str("Ann"))]) == Text("Ann")
  {
    TemplaterSpacedName("${name}", 0, "name", 0, [("name", Str("")), ("NAME", Str("Ann"))], 1);
  }

  /** An earlier truthy key of another name does not take the placeholder. */
  lemma ExampleOtherKeyFirst()
    ensures Templater("${name}", [("greeting", Str("Hi")), ("name", Str("Ann"))]) == Text("Ann")
  {
    TemplaterSpacedName("${name}", 0, "name", 0, [("greeting", Str("Hi")), ("name", Str("Ann"))], 1);
  }

  /** An element substituted for a placeholder makes the result a sequence of parts. */
  lemma ExampleElement()
    ensures Templater("${a}", [("a", Elem(7))]) == Parts([Elem(7)])
  {
    TemplaterSpacedName("${a}", 0, "a", 0, [("a", Elem(7))], 0);
  }
}

=== FILE: translations.dfy ===
/**
 * The translation table reshapers of src/utils.js.
 *
 * A multi-language table maps every translation key to an array with one
 * slot per language, in the order of the language list; a single-language
 * table maps every key to one string. `getTranslationsForLanguage` reads one
 * column out of a multi-language table, and
 * `getSingleToMultilanguageTranslation` writes a single-language table into
 * the column of its language, keeping the other columns of an existing
 * table.
 */
module Translations {
  import opened Wrappers

  /** A language of the language list; only its code matters here. */
  datatype Language = Language(code: string)

  /** One array slot: `undefined` is `None`. */
  type Slot = Option<string>

  /** A multi-language table: every key maps to one slot per language. */
  type Table = map<string, seq<Slot>>

  /** `xs.indexOf(x)`: the first index holding `x`, or -1. */
  function IndexOf(xs: seq<string>, x: string): (r: int)
    ensures -1 <= r < |xs|
    ensures r == -1 <==> x !in xs
    ensures 0 <= r ==> xs[r] == x && x !in xs[..r]
  {
    if xs == [] then -1
    else if xs[0] == x then 0
    else
      var i := IndexOf(xs[1..], x);
      assert xs[1..][..if i < 0 then 0 else i] == xs[1..1 + if i < 0 then 0 else i];
      if i < 0 then -1 else i + 1
  }

  /** `languages.map(language => language.code)` */
  function Codes(languages: seq<Language>): seq<string> {
    seq(|languages|, i requires 0 <= i < |languages| => languages[i].code)
  }

  /** `getIndexForLanguageCode(code, languages)`: where the first language with that code stands, or -1. */
  function IndexForLanguageCode(code: string, languages: seq<Language>): (r: int)
    ensures -1 <= r < |languages|
    ensures r == -1 <==> forall i :: 0 <= i < |languages| ==> languages[i].code != code
    ensures 0 <= r ==> languages[r].code == code && forall i :: 0 <= i < r ==> languages[i].code != code
  {
    var codes := Codes(languages);
    assert |codes| == |languages| && forall i :: 0 <= i < |languages| ==> codes[i] == languages[i].code;
    var r := IndexOf(codes, code);
    assert forall i :: 0 <= i < |languages| && 0 <= r && i < r ==> codes[i] == codes[..r][i];
    r
  }

  /** `values[index]` for an array index that may be -1 or past the end. */
  function At(values: seq<Slot>, index: int): Slot {
    if 0 <= index < |values| then values[index] else None
  }

  // ---------------------------------------------------------------------------
  // One column out of the table

  /** The result of `getTranslationsForLanguage`: no language gives `{}`. */
  function TranslationsForLanguage(language: Option<Language>, languages: seq<Language>, table: Table)
    : map<string, Slot>
  {
    match language
    case None => map[]
    case Some(l) =>
      var index := IndexForLanguageCode(l.code, languages);
      map key | key in table :: At(table[key], index)
  }

  /** `getTranslationsForLanguage(language, languages, translations)`, the key loop taking the keys in any order. */
  method GetTranslationsForLanguage(language: Option<Language>, languages: seq<Language>, table: Table)
    returns (r: map<string, Slot>)
    ensures r == TranslationsForLanguage(language, languages, table)
  {
    if language.None? {
      return map[];
    }
    var index := IndexForLanguageCode(language.value.code, languages);
    r := map[];
    var remaining := table.Keys;
    while remaining != {}
      invariant remaining <= table.Keys
      invariant r.Keys == table.Keys - remaining
      invariant forall key :: key in r ==> r[key] == At(table[key], index)
      decreases remaining
    {
      var key :| key in remaining;
      r := r[key := At(table[key], index)];
      remaining := remaining - {key};
    }
  }

  /**
   * Every key of the table appears, with the slot of the first language
   * carrying the code; a code no language carries gives `undefined` everywhere.
   */
  lemma TranslationsForLanguageColumn(l: Language, languages: seq<Language>, table: Table, i: nat)
    requires i < |languages| && languages[i].code == l.code
    requires forall j :: 0 <= j < i ==> languages[j].code != l.code
    ensures TranslationsForLanguage(Some(l), languages, table).Keys == table.Keys
    ensures forall key :: key in table ==>
              TranslationsForLanguage(Some(l), languages, table)[key] ==
                if i < |table[key]| then table[key][i] else None
  {
    assert IndexForLanguageCode(l.code, languages) == i;
  }

  /** A language whose code is not in the list reads `undefined` for every key. */
  lemma TranslationsForUnknownLanguage(l: Language, languages: seq<Language>, table: Table)
    requires forall j :: 0 <= j < |languages| ==> languages[j].code != l.code
    ensures TranslationsForLanguage(Some(l), languages, table) == map key | key in table :: None
  {
  }

  // ---------------------------------------------------------------------------
  // One single-language table into its column

  /** `existingTranslations[key] || []`: an array, even an empty one, is truthy. */
  function ExistingValues(existing: Table, key: string): seq<Slot> {
    if key in existing then existing[key] else []
  }

  /** The result of `getSingleToMultilanguageTranslation(language, codes, flat, existing)`. */
  function SingleToMulti(language: string, codes: seq<string>, flat: map<string, string>, existing: Table): Table {
    var index := IndexOf(codes, language);
    var updates := if index >= 0 then flat else map[];
    map key | key in updates ::
      seq(|codes|, i requires 0 <= i < |codes| =>
        if i == index then Some(flat[key]) else At(ExistingValues(existing, key), i))
  }

  /** `getSingleToMultilanguageTranslation`, the key loop taking the keys in any order. */
  method GetSingleToMultilanguageTranslation(language: string, codes: seq<string>, flat: map<string, string>,
                                             existing: Table)
    returns (r: Table)
    ensures r == SingleToMulti(language, codes, flat, existing)
  {
    var index := IndexOf(codes, language);
    var updates := if index >= 0 then flat else map[];
    r := map[];
    var remaining := updates.Keys;
    while remaining != {}
      invariant remaining <= updates.Keys
      invariant r.Keys == updates.Keys - remaining
      invariant forall key :: key in r ==>
                  r[key] == seq(|codes|, i requires 0 <= i < |codes| =>
                              if i == index then Some(flat[key]) else At(ExistingValues(existing, key), i))
      decreases remaining
    {
      var key :| key in remaining;
      var existingValues := ExistingValues(existing, key);
      var values := seq(|codes|, i requires 0 <= i < |codes| =>
                      if i == index then Some(flat[key]) else At(existingValues, i));
      r := r[key := values];
      remaining := remaining - {key};
    }
  }

  /**
   * The result holds exactly the keys of the single-language table when its
   * language is in the list (keys only in the existing table are dropped),
   * and nothing otherwise; every array has one slot per language, the
   * language's own slot holding the new string and every other slot the
   * existing value or `undefined`.
   */
  lemma SingleToMultiShape(language: string, codes: seq<string>, flat: map<string, string>, existing: Table)
    ensures var r := SingleToMulti(language, codes, flat, existing);
            && (language !in codes ==> r == map[])
            && (language in codes ==> r.Keys == flat.Keys)
            && forall key :: key in r ==>
                 && |r[key]| == |codes|
                 && forall i :: 0 <= i < |codes| ==>
                      r[key][i] == if codes[i] == language && language !in codes[..i] then Some(flat[key])
                                   else if i < |ExistingValues(existing, key)| then ExistingValues(existing, key)[i]
                                   else None
  {
    var index := IndexOf(codes, language);
    forall i | 0 <= i < |codes| && codes[i] == language && language !in codes[..i] ensures i == index {
      assert forall k :: 0 <= k < i ==> codes[..i][k] == codes[k];
    }
  }

  /** Writing a column and reading it back gives the single-language table. */
  lemma ReadBackWrittenColumn(l: Language, languages: seq<Language>, flat: map<string, string>, existing: Table)
    requires exists i :: 0 <= i < |languages| && languages[i].code == l.code
    ensures TranslationsForLanguage(Some(l), languages, SingleToMulti(l.code, Codes(languages), flat, existing))
            == map key | key in flat :: Some(flat[key])
  {
    var codes := Codes(languages);
    var index := IndexOf(codes, l.code);
    assert index == IndexForLanguageCode(l.code, languages);
    var i :| 0 <= i < |languages| && languages[i].code == l.code;
    assert codes[i] == l.code;
  }

  /**
   * Reading a language's column out of a table whose arrays have one slot
   * per language, every slot of that language filled, and writing it back
   * into the same table gives the table again.
   */
  lemma WriteBackReadColumn(l: Language, languages: seq<Language>, table: Table)
    requires exists i :: 0 <= i < |languages| && languages[i].code == l.code
    requires forall key :: key in table ==> |table[key]| == |languages|
    requires forall key :: key in table ==> table[key][IndexForLanguageCode(l.code, languages)].Some?
    ensures var column := TranslationsForLanguage(Some(l), languages, table);
            SingleToMulti(l.code, Codes(languages), map key | key in column :: column[key].value, table) == table
  {
    var codes := Codes(languages);
    var index := IndexForLanguageCode(l.code, languages);
    assert IndexOf(codes, l.code) == index;
    var column := TranslationsForLanguage(Some(l), languages, table);
    var flat := map key | key in column :: column[key].value;
    var back := SingleToMulti(l.code, codes, flat, table);
    forall key | key in table ensures back[key] == table[key] {
      assert column[key] == table[key][index];
    }
  }

  /** Writing one column leaves what every other listed language reads unchanged, for the written keys. */
  lemma OtherColumnsUnchanged(l: Language, other: Language, languages: seq<Language>, flat: map<string, string>,
                              existing: Table)
    requires exists i :: 0 <= i < |languages| && languages[i].code == l.code
    requires other.code != l.code
    ensures var before := TranslationsForLanguage(Some(other), languages, existing);
            var after := TranslationsForLanguage(Some(other), languages, SingleToMulti(l.code, Codes(languages), flat, existing));
            forall key :: key in flat ==> key in after && after[key] == (if key in before then before[key] else None)
  {
    var codes := Codes(languages);
    assert |codes| == |languages| && forall i :: 0 <= i < |languages| ==> codes[i] == languages[i].code;
    var index := IndexOf(codes, l.code);
    var j := IndexForLanguageCode(other.code, languages);
    assert 0 <= j ==> codes[j] == other.code;
  }

  /** Writing the same single-language table twice is writing it once. */
  lemma SingleToMultiIdempotent(language: string, codes: seq<string>, flat: map<string, string>, existing: Table)
    ensures SingleToMulti(language, codes, flat, SingleToMulti(language, codes, flat, existing))
            == SingleToMulti(language, codes, flat, existing)
  {
    var once := SingleToMulti(language, codes, flat, existing);
    var twice := SingleToMulti(language, codes, flat, once);
    forall key | key in once ensures twice[key] == once[key] {
      assert ExistingValues(once, key) == once[key];
    }
  }
}

=== FILE: wrappers.dfy ===
/** The optional-value and outcome datatypes shared by the other modules. */
module Wrappers {

  /** A possibly absent value: JavaScript's `undefined` is `None`. */
  datatype Option<+T> = None | Some(value: T)

  /** The outcome of an operation that may throw. */
  datatype Result<+R, +E> = Success(value: R) | Failure(error: E)
}
